=== FILE: README.md ===
# Auto-update report merge — a Dafny model

The analysis step of auto-update-tech ends in `01-analysis/scripts/parse.js`. That
script folds four dependency reports into one list of records. Each record is keyed
by its Maven coordinate (groupId, artifactId, version). The four reports are:

1. **Relocation data** (`dependency-relocated-date.json`, any number of files).
   An unseen coordinate is inserted. A coordinate seen before is ignored, so the
   first write wins.
2. **Renovate update suggestions** (`renovate-filtered.json`, any number of files).
   Only candidates in the "major" or "non-major" bucket are kept. A matched record
   has its `newVersions` replaced, so the last write wins. An unmatched entry
   inserts a record.
3. **Dependency-Track vulnerabilities**. Each one is appended to the record with the
   same full coordinate, or it inserts a record.
4. **Dependency-Track policy violations**. These match on (groupId, artifactId)
   only. Each one is attached to the first record of that package, whatever its
   version, or it inserts a record.

The model has one module per concern:

- `Wrappers` (wrappers.dfy): `Option` and `Result`.
- `Seqs` (seqs.dfy): `findIndex` as `FindIndex`, and `String.prototype.split`
  as `Split` with its inverse `Join`.
- `Report` (report.dfy): the merged record, the coordinate, and the invariants
  `UniqueKeys` and `KeysKept`.
- `RelocationMerge`, `RenovateMerge`, `DependencyTrackMerge`: the four passes.
- `Pipeline` (pipeline.dfy): the passes in the script's order, and a worked example.

The script keeps the report in a global array. The model passes the report in and
returns it from each pass. Every pass is a pure fold over the entries. When a pass
reads several files, its nested loops become one fold over the files' lists joined
in order.

A JSON string member that may be missing is a `Field` (`Undefined` or
`Defined(text)`). This matters because `depName.split(":")[1]` is `undefined` when
the name has no colon. `undefined === undefined` holds in JavaScript, and it also
holds in the model. The `policyViolations` member is an `Option`, because a record
has it only once a violation has been attached. `epssScore` and relocation
descriptors are only copied, so they are `Opaque`.

The build tool is the command-line string, parsed once into `Option<BuildTool>`.
The script fails in two cases, and the model returns `Failure` in both:

- The tool is neither "Maven" nor "Gradle". The entry list is then `null`, and
  iterating it throws.
- A log has no package file for the tool. Then `config.maven[0]` or
  `config.gradle[0]` is `undefined`.

Both failures need at least one update-suggestion file. With none, the loop over
files never runs and an unknown tool goes unnoticed (parse.js:63-72).

Facts about the code that are easy to miss, and that the model follows:

- `depName` is split on every `:`. Parts 0 and 1 become the groupId and the
  artifactId, and any further parts are ignored. With no colon, part 1 does not
  exist and the artifactId is `undefined` (parse.js:75-76).
- The `if (!…vulnerabilities)` branch of the vulnerability pass (parse.js:132-134)
  never runs, because every record is created with a `vulnerabilities` array. The
  model uses a plain sequence.
- Only the first package file of the selected tool (`config.maven[0]` or
  `config.gradle[0]`) is read (parse.js:67, 70).
- A record a pass inserts has an empty-string `scope` and `lastUpdatedDate`, and
  empty lists for `newVersions`, `relocations` and `vulnerabilities` where the
  pass does not fill them. It has no `policyViolations` member unless the policy
  pass inserts it (parse.js:87-98, 137-147, 183-194). `Report.NewRecord` is that
  record before the pass sets its own member.

## Model

| member | source | states |
|---|---|---|
| Seqs.FindIndex | 01-analysis/scripts/parse.js:30-36 | the result is the lowest index whose element satisfies the predicate; `None` (the -1) exactly when no element does |
| Seqs.Split | 01-analysis/scripts/parse.js:75-76 | `split` yields at least one part; no part contains the separator; joining the parts with the separator gives back the input |
| Seqs.SplitJoin | 01-analysis/scripts/parse.js:75-76 | splitting a join of separator-free parts gives back exactly those parts |
| Seqs.SplitHead | 01-analysis/scripts/parse.js:75-76 | the first part of a split is the text before the first separator (all of it when there is none); there is a second part exactly when the string has a separator, and the remaining parts are the split of the text after the first separator |
| Report.FindKey | 01-analysis/scripts/parse.js:30-34 | the full-coordinate `findIndex` finds a record exactly when one has the coordinate, and it returns the first such record |
| Report.FindPackage | 01-analysis/scripts/parse.js:171-174 | the (groupId, artifactId) `findIndex` finds a record exactly when one of that package exists at any version, and it returns the first such record |
| Report.NewRecord | 01-analysis/scripts/parse.js:87-98 | the record a pass pushes for an unmatched coordinate (also parse.js:138-147, 184-194) has that coordinate, an empty-string scope and date, empty `newVersions`, `relocations` and `vulnerabilities`, and no `policyViolations` until the pass sets its own member |
| RelocationMerge.FromDependency | 01-analysis/scripts/parse.js:37-48 | a new record has the dependency's coordinate, scope and date, empty `newVersions` and `vulnerabilities`, and no policy violations; its relocations are the descriptor's, or none if absent |
| RelocationMerge.AddDependency | 01-analysis/scripts/parse.js:30-49 | a known coordinate leaves the report unchanged; an unknown one appends exactly one record built from the dependency |
| RelocationMerge.AddDependencies | 01-analysis/scripts/parse.js:28-50 | the old report is a prefix of the result; at most one record per dependency is added; an added record never has a coordinate the old report had; unique coordinates stay unique |
| RelocationMerge.AllDependencies | 01-analysis/scripts/parse.js:20-28 | the dependencies folded are every file's `dependencies` list laid end to end, files in order and each list in its own order; a dependency is folded exactly when some relocation file lists it |
| RelocationMerge.RelocationPass | 01-analysis/scripts/parse.js:20-52 | over all files: the old report is kept as a prefix, growth is bounded by the number of dependencies, and coordinate uniqueness is preserved |
| RelocationMerge.FirstWriteWins | 01-analysis/scripts/parse.js:28-49 | the first dependency with a new coordinate is the one the result holds for it; every record with that coordinate equals the record built from it, and later duplicates are dropped |
| RelocationMerge.PassFirstWriteWins | 01-analysis/scripts/parse.js:20-52 | across all relocation files in order, the first dependency with a coordinate new to the report is the one the result holds for it; every record with that coordinate is built from it, and duplicates in the same or later files are dropped |
| RelocationMerge.ExistingRecordKept | 01-analysis/scripts/parse.js:36-49 | a record already in the report comes through the relocation pass unchanged |
| RelocationMerge.AppendedFromDependencies | 01-analysis/scripts/parse.js:28-49 | every record the loop appends has the coordinate of some dependency in the list: nothing is pushed that no dependency asked for |
| RelocationMerge.AppendedInOrder | 01-analysis/scripts/parse.js:28-49 | appended records come in the order their coordinates first occur in the list: of two appended records, the earlier one's coordinate is listed before every dependency carrying the later one's |
| RelocationMerge.PassAppendedFromDependencies | 01-analysis/scripts/parse.js:20-52 | across all relocation files, every appended record has the coordinate of some dependency listed in one of them |
| RelocationMerge.PassAppendedInOrder | 01-analysis/scripts/parse.js:20-52 | across all relocation files, appended records come in the order their coordinates first occur, files in order and each list in its own order |
| RenovateMerge.ParseBuildTool | 01-analysis/scripts/parse.js:66-71 | "Maven" and "Gradle", compared case-sensitively, select the two tools; any other argument selects neither |
| RenovateMerge.UpdateInformation | 01-analysis/scripts/parse.js:204-227 | the output is never longer than the candidate list, every item has an empty `major`, and the output is empty exactly when no candidate is in the "major" or "non-major" bucket |
| RenovateMerge.UpdateInformationSound | 01-analysis/scripts/parse.js:207-225 | every output item is the mapping of some "major" or "non-major" candidate: `major` empty, `nonMajor` its newVersion, and its updateType |
| RenovateMerge.UpdateInformationComplete | 01-analysis/scripts/parse.js:207-225 | every "major" or "non-major" candidate has its mapping in the output |
| RenovateMerge.UpdateInformationAppend | 01-analysis/scripts/parse.js:207-225 | the filter keeps the original order: it distributes over concatenation of candidate lists |
| RenovateMerge.GetUpdateInformation | 01-analysis/scripts/parse.js:204-227 | the script's push loop computes exactly the reference filtered-and-mapped list |
| RenovateMerge.PackageOfDepName | 01-analysis/scripts/parse.js:75-76 | for a name "g:a" with colon-free g and a, groupId is g and artifactId is a |
| RenovateMerge.GroupIdOf | 01-analysis/scripts/parse.js:75 | `split(":")[0]` is always defined and is the text of `depName` before its first colon, or all of it when there is none |
| RenovateMerge.ArtifactIdOf | 01-analysis/scripts/parse.js:76 | `split(":")[1]` is undefined exactly when `depName` has no colon; otherwise it is the text between the first colon and the next one, or the end |
| RenovateMerge.EntryKey | 01-analysis/scripts/parse.js:75-82 | the coordinate an entry matches and inserts: groupId and artifactId are the first two colon-separated pieces of `depName` as above, and the version is `currentValue` |
| RenovateMerge.ApplyDependency | 01-analysis/scripts/parse.js:73-100 | an entry without updates is skipped; a match replaces only the first matching record's `newVersions` with the filtered list; no match appends one record with empty scope, date, relocations and vulnerabilities; only `newVersions` of existing records can change; uniqueness is preserved |
| RenovateMerge.ApplyDependencies | 01-analysis/scripts/parse.js:72-101 | positions and coordinates of existing records are kept; only their `newVersions` change; at most one record per entry is added, never with a coordinate the old report had; uniqueness is preserved |
| RenovateMerge.SelectEntries | 01-analysis/scripts/parse.js:65-71 | the entries are the `deps` of the tool's first package file; an unknown tool or a missing package file is an error |
| RenovateMerge.AllEntries | 01-analysis/scripts/parse.js:61-72 | collecting entries fails exactly when some file has no package file for the tool; with at least one file and no known tool it fails with the unknown-tool error; on success the entries are each file's `config.<tool>[0].deps`, laid end to end in file order |
| RenovateMerge.RenovatePass | 01-analysis/scripts/parse.js:60-103 | the pass fails exactly when some file cannot be read for the tool; on success coordinates and positions are kept, only `newVersions` change, at most one record is added per entry of all files, and uniqueness is preserved |
| RenovateMerge.ApplyDependencyAt | 01-analysis/scripts/parse.js:78-99 | the first record with a coordinate stays first after any entry, and only an entry with updates and that coordinate rewrites its `newVersions` |
| RenovateMerge.UntargetedRecordKept | 01-analysis/scripts/parse.js:78-99 | entries that never target a coordinate leave that coordinate's record unchanged |
| RenovateMerge.LastWriteWins | 01-analysis/scripts/parse.js:78-99 | after the fold over the entries, the coordinate targeted by some entry is present, and its first record carries the filtered list of the LAST entry targeting it; every other member is the old record's if it existed before, or an inserted record's (empty scope, date, relocations and vulnerabilities) if an entry created it during the fold |
| RenovateMerge.PassLastWriteWins | 01-analysis/scripts/parse.js:60-103 | when every file can be read, the pass succeeds and the first record with a coordinate carries the filtered list of the last entry, over all files in order, that targets it |
| RenovateMerge.PassUntargetedRecordKept | 01-analysis/scripts/parse.js:60-103 | when every file can be read, a record that no entry of any file targets stays the first with its coordinate and comes through the pass unchanged, `newVersions` included |
| RenovateMerge.AppendedFromEntries | 01-analysis/scripts/parse.js:72-101 | every record the loop appends has a coordinate that some entry with updates targets |
| RenovateMerge.AppendedInOrder | 01-analysis/scripts/parse.js:72-101 | appended records come in the order their coordinates are first targeted: of two appended records, some entry targets the earlier one's coordinate before every entry targeting the later one's |
| RenovateMerge.PassAppendedFromEntries | 01-analysis/scripts/parse.js:60-103 | on success, every appended record has a coordinate that some entry of some file targets |
| RenovateMerge.PassAppendedInOrder | 01-analysis/scripts/parse.js:60-103 | on success, appended records come in the order their coordinates are first targeted, files in order and each entry list in its own order |
| DependencyTrackMerge.AddFinding | 01-analysis/scripts/parse.js:124-148 | a full-coordinate match appends the vulnerability to the end of the first matching record's list and changes nothing else; no match appends a record whose vulnerabilities are exactly this one and whose other collections are empty, with a coordinate the old report lacked |
| DependencyTrackMerge.VulnerabilityPass | 01-analysis/scripts/parse.js:109-150 | positions and coordinates are kept, only `vulnerabilities` change (scope, date and relocations survive), growth is at most one per finding, an added record never has a coordinate the old report had, and uniqueness is preserved |
| DependencyTrackMerge.PushedToFirst | 01-analysis/scripts/parse.js:130-135 | over the pass, the first record with a coordinate receives, one push at a time, exactly the findings about that coordinate |
| DependencyTrackMerge.VulnerabilitiesAccumulate | 01-analysis/scripts/parse.js:124-135 | an existing record ends with its old vulnerabilities followed by those of all findings about its coordinate, in report order |
| DependencyTrackMerge.VulnerabilitiesCollected | 01-analysis/scripts/parse.js:109-150 | the first record with a coordinate after the pass, whether it existed before or a finding inserted it, holds its old vulnerabilities (none if inserted) followed by those of every finding about that coordinate, in report order; every other member is the old record's or an inserted record's |
| DependencyTrackMerge.AppendedFromFindings | 01-analysis/scripts/parse.js:109-150 | every record the pass appends has the coordinate of some finding's component |
| DependencyTrackMerge.FindingsAppendedInOrder | 01-analysis/scripts/parse.js:109-150 | appended records come in the order their coordinates are first reported: of two appended records, a finding about the earlier one's coordinate precedes every finding about the later one's |
| DependencyTrackMerge.ViolationOf | 01-analysis/scripts/parse.js:164-169 | the pushed violation copies `violationState`, `type` and `policyName`, and takes `componentUuid` from the component's `uuid` |
| DependencyTrackMerge.Attach | 01-analysis/scripts/parse.js:178-181 | attaching violations appends them to the list, treating an absent list as empty; the list stays absent only when it was absent and nothing was attached |
| DependencyTrackMerge.AddViolation | 01-analysis/scripts/parse.js:171-195 | a (groupId, artifactId) match, ignoring version, appends the violation to the first such record's list, which is created if absent; no match appends a record with exactly this violation and empty vulnerabilities, whose package was not in the report at any version; uniqueness is preserved |
| DependencyTrackMerge.PolicyViolationPass | 01-analysis/scripts/parse.js:156-197 | positions and coordinates are kept, only `policyViolations` change, growth is at most one per entry, an added record's package (groupId, artifactId) was not in the old report at any version, and uniqueness is preserved |
| DependencyTrackMerge.PushedToFirstPackage | 01-analysis/scripts/parse.js:176-181 | over the pass, the first record of a package receives, one push at a time, exactly the violations about that package |
| DependencyTrackMerge.ViolationsAccumulate | 01-analysis/scripts/parse.js:171-181 | the first record of a package ends with the violations of every entry about that package, at any version, in report order |
| DependencyTrackMerge.ViolationsCollected | 01-analysis/scripts/parse.js:156-197 | the first record of a package after the pass, whether it existed before or an entry inserted it, holds its old violations (none if inserted) with those of every entry about that package, at any version, attached in report order; every other member is the old record's or an inserted record's |
| DependencyTrackMerge.ViolationIgnoresVersion | 01-analysis/scripts/parse.js:171-174 | with two records of one package, a violation against the later record's version attaches to the earlier record and leaves the later one alone |
| DependencyTrackMerge.AppendedFromFirstEntry | 01-analysis/scripts/parse.js:171-194 | a record the policy pass inserts has the coordinate, and so the version, of the FIRST entry about its package; later entries about that package at other versions attach to it |
| DependencyTrackMerge.ViolationsAppendedInOrder | 01-analysis/scripts/parse.js:156-197 | appended records come in the order their packages are first reported: of two appended records, an entry with the earlier one's coordinate precedes every entry about the later one's package |
| Pipeline.BuildReport | 01-analysis/scripts/parse.js:254-257 | the run fails exactly when some update-suggestion file cannot be read for the tool; the written report has unique coordinates; records from the relocation pass keep their position, coordinate, scope, date and relocations |
| Pipeline.EndToEndExample | 01-analysis/scripts/parse.js:254-257 | one relocated `a:b:1.0`, a Maven suggestion for it to 1.1 and a vulnerability against it merge into exactly one record carrying all three |

## Left out

- `findFilesRecursive` (directory walk skipping `auto-update-report`) is file-system I/O. The model takes the parsed files as a sequence, in the order the walk would find them.
- Loading JSON with `require`, and writing the result with `JSON.stringify` and `fs.writeFileSync`, are file I/O and a foreign serialiser.
- Reading the command-line arguments is process plumbing. The project root is not needed, and the build tool is a string parameter.
- The `JSON.parse(JSON.stringify(...))` deep copies mean nothing under value semantics.
- `epssScore` (a float) and relocation descriptors are only copied, so they are modelled as opaque JSON text.
- A JSON `null` in `relocations` is not distinguished from a missing member. The model has only an absent member or a list.
- Malformed inputs are not modelled. In the script, a missing member that is read through, or a value of the wrong type, throws a TypeError. Examples are a missing `dependencies` (parse.js:26-28), `config` or `deps` (parse.js:67, 70, 72), `updates` (parse.js:73), `component` (parse.js:113-115) or `vulnerability` object (parse.js:118-121), and a non-string `depName` (parse.js:75). The input datatypes always carry these members. Only the two build-tool failures are modelled.
- The script has already changed the report when it crashes on a later file. That state is never written, so the model returns only the error.
- Pipeline.BuildReport: does not describe the successful report record by record. The per-pass lemmas do that.
- Gradle demo build scripts and the Java test and demo sources are build configuration and fixtures with no merge logic.

=== FILE: dependency_track.dfy ===
/** Third and fourth passes: the Dependency-Track vulnerability report and
    policy-violation report. Vulnerabilities match the full coordinate;
    policy violations match (groupId, artifactId) only. */
module DependencyTrackMerge {
  import opened Wrappers
  import opened Report
  import Seqs

  /** The `component` object of a Dependency-Track entry. */
  datatype Component = Component(group: Field, name: Field, version: Field, uuid: string)

  /** One entry of the vulnerability report; only the four copied members of
      its `vulnerability` object are kept. */
  datatype Finding = Finding(component: Component, vulnerability: Vulnerability)

  /** One entry of the policy-violation report. */
  datatype ViolationEntry = ViolationEntry(component: Component, violationState: string, violationType: string, policyName: string)

  function ComponentKey(c: Component): Coordinate {
    Coordinate(c.group, c.name, c.version)
  }

  // ---------------------------------------------------------------------------
  // getDependencyTrackInformation
  // ---------------------------------------------------------------------------

  /** One iteration: append the vulnerability to the first record with the
      component's coordinate, or add a record holding only this vulnerability. */
  function AddFinding(report: Report, f: Finding): (r: Report)
    ensures forall i :: IsFirstKey(report, i, ComponentKey(f.component)) ==>
              r == report[i := report[i].(vulnerabilities := report[i].vulnerabilities + [f.vulnerability])]
    ensures !HasKey(report, ComponentKey(f.component)) ==>
              r == report + [NewRecord(ComponentKey(f.component)).(vulnerabilities := [f.vulnerability])]
    ensures KeysKept(report, r) && |r| <= |report| + 1
    ensures forall i :: |report| <= i < |r| ==> !HasKey(report, r[i].Key())
    ensures forall i :: 0 <= i < |report| ==> r[i] == report[i].(vulnerabilities := r[i].vulnerabilities)
    ensures UniqueKeys(report) ==> UniqueKeys(r)
  {
    var c := f.component;
    match FindKey(report, ComponentKey(c))
    case Some(i) => report[i := report[i].(vulnerabilities := report[i].vulnerabilities + [f.vulnerability])]
    case None => report + [NewRecord(ComponentKey(c)).(vulnerabilities := [f.vulnerability])]
  }

  /** The loop over the whole vulnerability report. */
  function VulnerabilityPass(report: Report, findings: seq<Finding>): (r: Report)
    ensures KeysKept(report, r)
    ensures |r| <= |report| + |findings|
    ensures forall i :: |report| <= i < |r| ==> !HasKey(report, r[i].Key())
    ensures forall i :: 0 <= i < |report| ==> r[i] == report[i].(vulnerabilities := r[i].vulnerabilities)
    ensures UniqueKeys(report) ==> UniqueKeys(r)
    decreases |findings|
  {
    if |findings| == 0 then report
    else VulnerabilityPass(AddFinding(report, findings[0]), findings[1..])
  }

  /** The vulnerabilities finding `f` contributes to coordinate `k`. */
  function FindingContribution(f: Finding, k: Coordinate): seq<Vulnerability> {
    if ComponentKey(f.component) == k then [f.vulnerability] else []
  }

  /** The vulnerabilities of the findings about coordinate `k`, in report order. */
  function VulnerabilitiesFor(findings: seq<Finding>, k: Coordinate): seq<Vulnerability>
  {
    if |findings| == 0 then []
    else
      FindingContribution(findings[0], k) + VulnerabilitiesFor(findings[1..], k)
  }

  /** One finding seen from the record that is first with coordinate `k`: it
      stays first, and only a finding about `k` changes it. */
  lemma AddFindingAt(report: Report, f: Finding, idx: int, k: Coordinate)
    requires IsFirstKey(report, idx, k)
    ensures IsFirstKey(AddFinding(report, f), idx, k)
    ensures ComponentKey(f.component) == k ==>
              AddFinding(report, f)[idx].vulnerabilities == report[idx].vulnerabilities + [f.vulnerability]
    ensures ComponentKey(f.component) != k ==> AddFinding(report, f)[idx] == report[idx]
  {
  }

  /** `vs` with the vulnerability of each finding about `k` pushed in turn: the
      script's `if (…) push(…)` as written. `VulnerabilitiesFor` is written
      independently, from `FindingContribution`; `PushFindingsAppends` shows the
      two agree, which is what lets `VulnerabilitiesAccumulate` speak of the
      reference list. */
  function PushFindings(vs: seq<Vulnerability>, findings: seq<Finding>, k: Coordinate): seq<Vulnerability>
    decreases |findings|
  {
    if |findings| == 0 then vs
    else
      var f := findings[0];
      PushFindings(if ComponentKey(f.component) == k then vs + [f.vulnerability] else vs, findings[1..], k)
  }

  /** Pushing one at a time is appending the reference list. */
  lemma {:induction false} PushFindingsAppends(vs: seq<Vulnerability>, findings: seq<Finding>, k: Coordinate)
    ensures PushFindings(vs, findings, k) == vs + VulnerabilitiesFor(findings, k)
    decreases |findings|
  {
    if |findings| == 0 {
      assert vs + [] == vs;
    } else {
      var f := findings[0];
      var rest := VulnerabilitiesFor(findings[1..], k);
      if ComponentKey(f.component) == k {
        PushFindingsAppends(vs + [f.vulnerability], findings[1..], k);
        assert (vs + [f.vulnerability]) + rest == vs + ([f.vulnerability] + rest);
      } else {
        PushFindingsAppends(vs, findings[1..], k);
        assert [] + rest == rest;
      }
    }
  }

  /** The pass pushes onto the first record with `k` exactly the findings about `k`. */
  lemma {:induction false} PushedToFirst(report: Report, findings: seq<Finding>, idx: int, k: Coordinate)
    requires IsFirstKey(report, idx, k)
    ensures IsFirstKey(VulnerabilityPass(report, findings), idx, k)
    ensures VulnerabilityPass(report, findings)[idx].vulnerabilities ==
              PushFindings(report[idx].vulnerabilities, findings, k)
    decreases |findings|
  {
    if |findings| > 0 {
      var next := AddFinding(report, findings[0]);
      AddFindingAt(report, findings[0], idx, k);
      PushedToFirst(next, findings[1..], idx, k);
    }
  }

  /** Every finding about an existing record's coordinate is appended to it, in
      report order, and nothing else about that record changes. */
  lemma VulnerabilitiesAccumulate(report: Report, findings: seq<Finding>, idx: int, k: Coordinate)
    requires IsFirstKey(report, idx, k)
    ensures IsFirstKey(VulnerabilityPass(report, findings), idx, k)
    ensures VulnerabilityPass(report, findings)[idx] ==
              report[idx].(vulnerabilities := report[idx].vulnerabilities + VulnerabilitiesFor(findings, k))
  {
    PushedToFirst(report, findings, idx, k);
    PushFindingsAppends(report[idx].vulnerabilities, findings, k);
  }

  /** After a finding, its coordinate is in the report. */
  lemma FindingKeyPresent(report: Report, f: Finding)
    ensures HasKey(AddFinding(report, f), ComponentKey(f.component))
  {
    var fk := ComponentKey(f.component);
    var next := AddFinding(report, f);
    if HasKey(report, fk) {
      var j := FindKey(report, fk).value;
      assert next[j].Key() == fk;
    } else {
      assert next[|report|].Key() == fk;
    }
  }

  /** Record `idx` of `report` with `vs` appended to its vulnerabilities, or a
      new record for `k` holding exactly `vs` when `idx` lies past the end. */
  function WithVulnerabilities(report: Report, idx: int, k: Coordinate, vs: seq<Vulnerability>): Record
    requires 0 <= idx
  {
    if idx < |report| then report[idx].(vulnerabilities := report[idx].vulnerabilities + vs)
    else NewRecord(k).(vulnerabilities := vs)
  }

  /** The first record with `k` after the rest of the pass, seen through the
      report `next` after finding `f`, restated through the report before it. */
  lemma FindingStepBack(report: Report, f: Finding, next: Report, r: Report, k: Coordinate, vs: seq<Vulnerability>, idx: int)
    requires next == AddFinding(report, f)
    requires KeysKept(next, r)
    requires IsFirstKey(r, idx, k)
    requires r[idx] == WithVulnerabilities(next, idx, k, vs)
    ensures r[idx] == WithVulnerabilities(report, idx, k, FindingContribution(f, k) + vs)
  {
    var fk := ComponentKey(f.component);
    if idx < |report| {
      assert IsFirstKey(report, idx, k);
      AddFindingAt(report, f, idx, k);
      var old_vs := report[idx].vulnerabilities;
      assert next[idx] == report[idx].(vulnerabilities := old_vs + FindingContribution(f, k));
      Seqs.AppendAssoc(old_vs, FindingContribution(f, k), vs);
    } else if idx < |next| {
      assert next == report + [NewRecord(fk).(vulnerabilities := [f.vulnerability])];
      assert fk == k;
    } else {
      FindingKeyPresent(report, f);
      assert fk != k;
    }
  }

  /** Every record the pass leaves first with coordinate `k`, whether it was there
      before or a finding inserted it, ends with its old vulnerabilities (none
      for an inserted record) followed by those of all findings about `k`, in
      report order; every other member is the old record's or a new record's. */
  lemma {:induction false} VulnerabilitiesCollected(report: Report, findings: seq<Finding>, k: Coordinate)
    ensures forall idx :: IsFirstKey(VulnerabilityPass(report, findings), idx, k) ==>
              VulnerabilityPass(report, findings)[idx] == WithVulnerabilities(report, idx, k, VulnerabilitiesFor(findings, k))
    decreases |findings|
  {
    var r := VulnerabilityPass(report, findings);
    if |findings| == 0 {
      forall idx | IsFirstKey(r, idx, k)
        ensures r[idx] == WithVulnerabilities(report, idx, k, [])
      {
        assert report[idx].vulnerabilities + [] == report[idx].vulnerabilities;
      }
    } else {
      var f := findings[0];
      var next := AddFinding(report, f);
      var rest := findings[1..];
      assert r == VulnerabilityPass(next, rest);
      assert VulnerabilitiesFor(findings, k) == FindingContribution(f, k) + VulnerabilitiesFor(rest, k);
      VulnerabilitiesCollected(next, rest, k);
      forall idx | IsFirstKey(r, idx, k)
        ensures r[idx] == WithVulnerabilities(report, idx, k, VulnerabilitiesFor(findings, k))
      {
        FindingStepBack(report, f, next, r, k, VulnerabilitiesFor(rest, k), idx);
      }
    }
  }

  // ---------------------------------------------------------------------------
  // getDependencyTrackPolicyViolationInformation
  // ---------------------------------------------------------------------------

  /** The `policyViolation` object: the component's `uuid` becomes `componentUuid`,
      and the other three members are copied. */
  function ViolationOf(v: ViolationEntry): (pv: PolicyViolation)
    ensures pv.componentUuid == v.component.uuid && pv.violationState == v.violationState
    ensures pv.violationType == v.violationType && pv.policyName == v.policyName
  {
    PolicyViolation(v.component.uuid, v.violationState, v.violationType, v.policyName)
  }

  /** `vs` pushed onto an optional list, creating it if absent; an empty `vs`
      leaves an absent list absent. */
  function Attach(existing: Option<seq<PolicyViolation>>, vs: seq<PolicyViolation>): (r: Option<seq<PolicyViolation>>)
    ensures r.None? <==> existing.None? && vs == []
    ensures r.GetOr([]) == existing.GetOr([]) + vs
  {
    if vs == [] then existing else Some(existing.GetOr([]) + vs)
  }

  /** One iteration: attach the violation to the first record with the same
      groupId and artifactId, whatever its version, or add a record for it. */
  function AddViolation(report: Report, v: ViolationEntry): (r: Report)
    ensures forall i :: IsFirstPackage(report, i, v.component.group, v.component.name) ==>
              r == report[i := report[i].(policyViolations := Some(report[i].policyViolations.GetOr([]) + [ViolationOf(v)]))]
    ensures !HasPackage(report, v.component.group, v.component.name) ==>
              r == report + [NewRecord(ComponentKey(v.component)).(policyViolations := Some([ViolationOf(v)]))]
    ensures KeysKept(report, r) && |r| <= |report| + 1
    ensures forall i :: |report| <= i < |r| ==> !HasPackage(report, r[i].groupId, r[i].artifactId)
    ensures forall i :: 0 <= i < |report| ==> r[i] == report[i].(policyViolations := r[i].policyViolations)
    ensures UniqueKeys(report) ==> UniqueKeys(r)
  {
    var c := v.component;
    match FindPackage(report, c.group, c.name)
    case Some(i) =>
      report[i := report[i].(policyViolations := Some(report[i].policyViolations.GetOr([]) + [ViolationOf(v)]))]
    case None =>
      assert !HasKey(report, ComponentKey(c));
      report + [NewRecord(ComponentKey(c)).(policyViolations := Some([ViolationOf(v)]))]
  }

  /** The loop over the whole policy-violation report. */
  function PolicyViolationPass(report: Report, entries: seq<ViolationEntry>): (r: Report)
    ensures KeysKept(report, r)
    ensures |r| <= |report| + |entries|
    ensures forall i :: |report| <= i < |r| ==> !HasPackage(report, r[i].groupId, r[i].artifactId)
    ensures forall i :: 0 <= i < |report| ==> r[i] == report[i].(policyViolations := r[i].policyViolations)
    ensures UniqueKeys(report) ==> UniqueKeys(r)
    decreases |entries|
  {
    if |entries| == 0 then report
    else PolicyViolationPass(AddViolation(report, entries[0]), entries[1..])
  }

  /** Entry `v` is about package (g, a), at any version. */
  predicate AboutPackage(v: ViolationEntry, g: Field, a: Field) {
    v.component.group == g && v.component.name == a
  }

  /** The violations entry `v` contributes to package (g, a). */
  function ViolationContribution(v: ViolationEntry, g: Field, a: Field): seq<PolicyViolation> {
    if AboutPackage(v, g, a) then [ViolationOf(v)] else []
  }

  /** The violations of the entries about package (g, a), any version, in report order. */
  function ViolationsFor(entries: seq<ViolationEntry>, g: Field, a: Field): seq<PolicyViolation>
  {
    if |entries| == 0 then []
    else
      ViolationContribution(entries[0], g, a) + ViolationsFor(entries[1..], g, a)
  }

  /** One entry seen from the record that is first of package (g, a): it stays
      first, and only an entry about that package changes it. */
  lemma AddViolationAt(report: Report, v: ViolationEntry, idx: int, g: Field, a: Field)
    requires IsFirstPackage(report, idx, g, a)
    ensures IsFirstPackage(AddViolation(report, v), idx, g, a)
    ensures v.component.group == g && v.component.name == a ==>
              AddViolation(report, v)[idx].policyViolations == Some(report[idx].policyViolations.GetOr([]) + [ViolationOf(v)])
    ensures !(v.component.group == g && v.component.name == a) ==> AddViolation(report, v)[idx] == report[idx]
  {
  }

  /** `pvs` with the violation of each entry about package (g, a) pushed in
      turn, the list being created by the first push: the script's
      `if (!…) … = []; push(…)` as written. `ViolationsFor` is written
      independently, from `ViolationContribution`; `PushViolationsAttaches`
      shows the two agree. */
  function PushViolations(pvs: Option<seq<PolicyViolation>>, entries: seq<ViolationEntry>, g: Field, a: Field): Option<seq<PolicyViolation>>
    decreases |entries|
  {
    if |entries| == 0 then pvs
    else
      var v := entries[0];
      var next := if v.component.group == g && v.component.name == a then Some(pvs.GetOr([]) + [ViolationOf(v)]) else pvs;
      PushViolations(next, entries[1..], g, a)
  }

  /** Pushing one at a time is attaching the reference list. */
  lemma {:induction false} PushViolationsAttaches(pvs: Option<seq<PolicyViolation>>, entries: seq<ViolationEntry>, g: Field, a: Field)
    ensures PushViolations(pvs, entries, g, a) == Attach(pvs, ViolationsFor(entries, g, a))
    decreases |entries|
  {
    if |entries| > 0 {
      var v := entries[0];
      var rest := ViolationsFor(entries[1..], g, a);
      if v.component.group == g && v.component.name == a {
        var pushed := Some(pvs.GetOr([]) + [ViolationOf(v)]);
        PushViolationsAttaches(pushed, entries[1..], g, a);
        assert pvs.GetOr([]) + [ViolationOf(v)] + rest == pvs.GetOr([]) + ([ViolationOf(v)] + rest);
      } else {
        PushViolationsAttaches(pvs, entries[1..], g, a);
        assert [] + rest == rest;
      }
    }
  }

  /** The pass pushes onto the first record of (g, a) exactly the entries about it. */
  lemma {:induction false} PushedToFirstPackage(report: Report, entries: seq<ViolationEntry>, idx: int, g: Field, a: Field)
    requires IsFirstPackage(report, idx, g, a)
    ensures IsFirstPackage(PolicyViolationPass(report, entries), idx, g, a)
    ensures PolicyViolationPass(report, entries)[idx].policyViolations ==
              PushViolations(report[idx].policyViolations, entries, g, a)
    decreases |entries|
  {
    if |entries| > 0 {
      var next := AddViolation(report, entries[0]);
      AddViolationAt(report, entries[0], idx, g, a);
      PushedToFirstPackage(next, entries[1..], idx, g, a);
    }
  }

  /** Every violation about package (g, a), of any version, lands on the first
      record of that package, in report order; nothing else about it changes. */
  lemma ViolationsAccumulate(report: Report, entries: seq<ViolationEntry>, idx: int, g: Field, a: Field)
    requires IsFirstPackage(report, idx, g, a)
    ensures IsFirstPackage(PolicyViolationPass(report, entries), idx, g, a)
    ensures PolicyViolationPass(report, entries)[idx] ==
              report[idx].(policyViolations := Attach(report[idx].policyViolations, ViolationsFor(entries, g, a)))
  {
    PushedToFirstPackage(report, entries, idx, g, a);
    PushViolationsAttaches(report[idx].policyViolations, entries, g, a);
  }

  /** Version is not part of the match: with two records of one package that
      differ only in version, a violation reported against the second version
      still lands on the first record, and the second is left alone. */
  lemma ViolationIgnoresVersion(report: Report, i: int, j: int, v: ViolationEntry)
    requires IsFirstPackage(report, i, v.component.group, v.component.name)
    requires i < j < |report|
    requires report[j].Key() == ComponentKey(v.component)
    ensures AddViolation(report, v)[j] == report[j]
    ensures AddViolation(report, v)[i].policyViolations == Some(report[i].policyViolations.GetOr([]) + [ViolationOf(v)])
  {
  }

  /** Attaching in two steps is attaching the joined list once. */
  lemma AttachTwice(existing: Option<seq<PolicyViolation>>, xs: seq<PolicyViolation>, ys: seq<PolicyViolation>)
    ensures Attach(Attach(existing, xs), ys) == Attach(existing, xs + ys)
  {
    if xs != [] && ys != [] {
      Seqs.AppendAssoc(existing.GetOr([]), xs, ys);
    } else if xs == [] {
      assert xs + ys == ys;
    } else {
      assert xs + ys == xs;
    }
  }

  /** After an entry, its package is in the report. */
  lemma ViolationPackagePresent(report: Report, v: ViolationEntry)
    ensures HasPackage(AddViolation(report, v), v.component.group, v.component.name)
  {
    var c := v.component;
    var next := AddViolation(report, v);
    if HasPackage(report, c.group, c.name) {
      var j := FindPackage(report, c.group, c.name).value;
      assert next[j].groupId == c.group && next[j].artifactId == c.name;
    } else {
      assert next[|report|].groupId == c.group && next[|report|].artifactId == c.name;
    }
  }

  /** Record `idx` of `report` with `vs` attached to its policy violations, or a
      new record for `k` holding exactly `vs` when `idx` lies past the end. */
  function WithViolations(report: Report, idx: int, k: Coordinate, vs: seq<PolicyViolation>): Record
    requires 0 <= idx
  {
    if idx < |report| then report[idx].(policyViolations := Attach(report[idx].policyViolations, vs))
    else NewRecord(k).(policyViolations := Attach(None, vs))
  }

  /** The first record of (g, a) after the rest of the pass, seen through the
      report `next` after entry `v`, restated through the report before it. */
  lemma ViolationStepBack(report: Report, v: ViolationEntry, next: Report, r: Report, g: Field, a: Field,
                          vs: seq<PolicyViolation>, idx: int)
    requires next == AddViolation(report, v)
    requires KeysKept(next, r)
    requires IsFirstPackage(r, idx, g, a)
    requires r[idx] == WithViolations(next, idx, r[idx].Key(), vs)
    ensures r[idx] == WithViolations(report, idx, r[idx].Key(), ViolationContribution(v, g, a) + vs)
  {
    var c := v.component;
    var mine := ViolationContribution(v, g, a);
    if idx < |report| {
      assert IsFirstPackage(report, idx, g, a) by {
        assert forall j :: 0 <= j <= idx ==> report[j].Key() == r[j].Key();
      }
      AddViolationAt(report, v, idx, g, a);
      assert next[idx] == report[idx].(policyViolations := Attach(report[idx].policyViolations, mine));
      AttachTwice(report[idx].policyViolations, mine, vs);
    } else if idx < |next| {
      assert next == report + [NewRecord(ComponentKey(c)).(policyViolations := Some([ViolationOf(v)]))];
      assert ComponentKey(c) == next[idx].Key() == r[idx].Key();
      assert mine == [ViolationOf(v)];
      assert Attach(None, mine) == Some([ViolationOf(v)]) by {
        assert [] + mine == mine;
      }
      AttachTwice(None, mine, vs);
    } else {
      ViolationPackagePresent(report, v);
      assert forall j :: 0 <= j < |next| ==> r[j].Key() == next[j].Key();
      assert !HasPackage(next, g, a);
      assert mine == [];
      assert mine + vs == vs;
    }
  }

  /** Every record the pass leaves first of package (g, a), whether it was there
      before or an entry inserted it, ends with its old policy violations (none
      for an inserted record) with those of all entries about (g, a), at any
      version, attached in report order; every other member is the old record's
      or a new record's. */
  lemma {:induction false} ViolationsCollected(report: Report, entries: seq<ViolationEntry>, g: Field, a: Field)
    ensures forall idx :: IsFirstPackage(PolicyViolationPass(report, entries), idx, g, a) ==>
              PolicyViolationPass(report, entries)[idx] ==
                WithViolations(report, idx, PolicyViolationPass(report, entries)[idx].Key(), ViolationsFor(entries, g, a))
    decreases |entries|
  {
    var r := PolicyViolationPass(report, entries);
    if |entries| > 0 {
      var v := entries[0];
      var next := AddViolation(report, v);
      var rest := entries[1..];
      assert r == PolicyViolationPass(next, rest);
      assert ViolationsFor(entries, g, a) == ViolationContribution(v, g, a) + ViolationsFor(rest, g, a);
      ViolationsCollected(next, rest, g, a);
      forall idx | IsFirstPackage(r, idx, g, a)
        ensures r[idx] == WithViolations(report, idx, r[idx].Key(), ViolationsFor(entries, g, a))
      {
        ViolationStepBack(report, v, next, r, g, a, ViolationsFor(rest, g, a), idx);
      }
    }
  }

  // ---------------------------------------------------------------------------
  // Which records the two passes append, and in what order
  // ---------------------------------------------------------------------------

  /** Some finding in `findings` is about coordinate `k`. */
  predicate Reported(findings: seq<Finding>, k: Coordinate) {
    exists j :: 0 <= j < |findings| && ComponentKey(findings[j].component) == k
  }

  /** Every finding in `findings` about `b` comes after one about `a`. */
  predicate ReportedBefore(findings: seq<Finding>, a: Coordinate, b: Coordinate) {
    forall n :: 0 <= n < |findings| && ComponentKey(findings[n].component) == b ==>
      exists m :: 0 <= m < n && ComponentKey(findings[m].component) == a
  }

  /** `Reported` seen from the tail of the list. */
  lemma ReportedTail(findings: seq<Finding>, k: Coordinate)
    requires 0 < |findings|
    requires ComponentKey(findings[0].component) == k || Reported(findings[1..], k)
    ensures Reported(findings, k)
  {
    if ComponentKey(findings[0].component) != k {
      var j :| 0 <= j < |findings[1..]| && ComponentKey(findings[1..][j].component) == k;
      assert findings[1..][j] == findings[j + 1];
    }
  }

  /** `ReportedBefore` seen from the tail of the list. */
  lemma ReportedBeforeTail(findings: seq<Finding>, a: Coordinate, b: Coordinate)
    requires 0 < |findings| && ComponentKey(findings[0].component) != b
    requires ComponentKey(findings[0].component) == a || ReportedBefore(findings[1..], a, b)
    ensures ReportedBefore(findings, a, b)
  {
    forall n | 0 <= n < |findings| && ComponentKey(findings[n].component) == b
      ensures exists m :: 0 <= m < n && ComponentKey(findings[m].component) == a
    {
      assert findings[1..][n - 1] == findings[n];
      if ComponentKey(findings[0].component) != a {
        var m :| 0 <= m < n - 1 && ComponentKey(findings[1..][m].component) == a;
        assert findings[1..][m] == findings[m + 1];
      }
    }
  }

  /** Nothing is appended without a finding: every record past the old end has
      the coordinate of some finding's component. */
  lemma {:induction false} AppendedFromFindings(report: Report, findings: seq<Finding>)
    ensures var r := VulnerabilityPass(report, findings);
            forall i :: |report| <= i < |r| ==> Reported(findings, r[i].Key())
    decreases |findings|
  {
    if |findings| > 0 {
      var r := VulnerabilityPass(report, findings);
      var next := AddFinding(report, findings[0]);
      assert r == VulnerabilityPass(next, findings[1..]);
      AppendedFromFindings(next, findings[1..]);
      forall i | |report| <= i < |r|
        ensures Reported(findings, r[i].Key())
      {
        if i < |next| {
          assert !HasKey(report, ComponentKey(findings[0].component));
          assert r[i].Key() == next[i].Key();
        }
        ReportedTail(findings, r[i].Key());
      }
    }
  }

  /** Records are appended in the order their coordinates are first reported:
      of two appended records, the earlier one's coordinate has a finding before
      every finding about the later one's. */
  lemma {:induction false} FindingsAppendedInOrder(report: Report, findings: seq<Finding>)
    ensures var r := VulnerabilityPass(report, findings);
            forall i, i' :: |report| <= i < i' < |r| ==> ReportedBefore(findings, r[i].Key(), r[i'].Key())
    decreases |findings|
  {
    if |findings| > 0 {
      var r := VulnerabilityPass(report, findings);
      var next := AddFinding(report, findings[0]);
      assert r == VulnerabilityPass(next, findings[1..]);
      FindingsAppendedInOrder(next, findings[1..]);
      FindingKeyPresent(report, findings[0]);
      forall i, i' | |report| <= i < i' < |r|
        ensures ReportedBefore(findings, r[i].Key(), r[i'].Key())
      {
        assert !HasKey(next, r[i'].Key());
        if i < |next| {
          assert !HasKey(report, ComponentKey(findings[0].component));
          assert r[i].Key() == next[i].Key();
        }
        ReportedBeforeTail(findings, r[i].Key(), r[i'].Key());
      }
    }
  }

  /** The first entry about the package of `k` has exactly coordinate `k`. */
  predicate FirstEntryHasKey(entries: seq<ViolationEntry>, k: Coordinate) {
    exists m :: 0 <= m < |entries| && ComponentKey(entries[m].component) == k &&
      forall n :: 0 <= n < m ==> !AboutPackage(entries[n], k.groupId, k.artifactId)
  }

  /** Every entry in `entries` about package (g, a) comes after one with coordinate `k`. */
  predicate KeyReportedBefore(entries: seq<ViolationEntry>, k: Coordinate, g: Field, a: Field) {
    forall n :: 0 <= n < |entries| && AboutPackage(entries[n], g, a) ==>
      exists m :: 0 <= m < n && ComponentKey(entries[m].component) == k
  }

  /** `FirstEntryHasKey` seen from the tail of the list. */
  lemma FirstEntryHasKeyTail(entries: seq<ViolationEntry>, k: Coordinate)
    requires 0 < |entries|
    requires ComponentKey(entries[0].component) == k ||
             (!AboutPackage(entries[0], k.groupId, k.artifactId) && FirstEntryHasKey(entries[1..], k))
    ensures FirstEntryHasKey(entries, k)
  {
    if ComponentKey(entries[0].component) != k {
      var m :| 0 <= m < |entries[1..]| && ComponentKey(entries[1..][m].component) == k &&
               forall n :: 0 <= n < m ==> !AboutPackage(entries[1..][n], k.groupId, k.artifactId);
      assert entries[1..][m] == entries[m + 1];
      forall n | 0 <= n < m + 1
        ensures !AboutPackage(entries[n], k.groupId, k.artifactId)
      {
        if n > 0 {
          assert entries[1..][n - 1] == entries[n];
        }
      }
    }
  }

  /** `KeyReportedBefore` seen from the tail of the list. */
  lemma KeyReportedBeforeTail(entries: seq<ViolationEntry>, k: Coordinate, g: Field, a: Field)
    requires 0 < |entries| && !AboutPackage(entries[0], g, a)
    requires ComponentKey(entries[0].component) == k || KeyReportedBefore(entries[1..], k, g, a)
    ensures KeyReportedBefore(entries, k, g, a)
  {
    forall n | 0 <= n < |entries| && AboutPackage(entries[n], g, a)
      ensures exists m :: 0 <= m < n && ComponentKey(entries[m].component) == k
    {
      assert entries[1..][n - 1] == entries[n];
      if ComponentKey(entries[0].component) != k {
        var m :| 0 <= m < n - 1 && ComponentKey(entries[1..][m].component) == k;
        assert entries[1..][m] == entries[m + 1];
      }
    }
  }

  /** A record the policy pass appends has the coordinate of the FIRST entry
      about its package: that entry's version, not a later entry's. */
  lemma {:induction false} AppendedFromFirstEntry(report: Report, entries: seq<ViolationEntry>)
    ensures var r := PolicyViolationPass(report, entries);
            forall i :: |report| <= i < |r| ==> FirstEntryHasKey(entries, r[i].Key())
    decreases |entries|
  {
    if |entries| > 0 {
      var r := PolicyViolationPass(report, entries);
      var next := AddViolation(report, entries[0]);
      assert r == PolicyViolationPass(next, entries[1..]);
      AppendedFromFirstEntry(next, entries[1..]);
      ViolationPackagePresent(report, entries[0]);
      forall i | |report| <= i < |r|
        ensures FirstEntryHasKey(entries, r[i].Key())
      {
        if i < |next| {
          assert !HasPackage(report, entries[0].component.group, entries[0].component.name);
          assert r[i].Key() == next[i].Key();
        } else {
          assert !HasPackage(next, r[i].groupId, r[i].artifactId);
        }
        FirstEntryHasKeyTail(entries, r[i].Key());
      }
    }
  }

  /** Records are appended in the order their packages are first reported: of
      two appended records, the earlier one's coordinate has an entry before
      every entry about the later one's package. */
  lemma {:induction false} ViolationsAppendedInOrder(report: Report, entries: seq<ViolationEntry>)
    ensures var r := PolicyViolationPass(report, entries);
            forall i, i' :: |report| <= i < i' < |r| ==>
              KeyReportedBefore(entries, r[i].Key(), r[i'].groupId, r[i'].artifactId)
    decreases |entries|
  {
    if |entries| > 0 {
      var r := PolicyViolationPass(report, entries);
      var next := AddViolation(report, entries[0]);
      assert r == PolicyViolationPass(next, entries[1..]);
      ViolationsAppendedInOrder(next, entries[1..]);
      ViolationPackagePresent(report, entries[0]);
      forall i, i' | |report| <= i < i' < |r|
        ensures KeyReportedBefore(entries, r[i].Key(), r[i'].groupId, r[i'].artifactId)
      {
        assert !HasPackage(next, r[i'].groupId, r[i'].artifactId);
        if i < |next| {
          assert !HasPackage(report, entries[0].component.group, entries[0].component.name);
          assert r[i].Key() == next[i].Key();
        }
        KeyReportedBeforeTail(entries, r[i].Key(), r[i'].groupId, r[i'].artifactId);
      }
    }
  }
}

=== FILE: pipeline.dfy ===
/** The whole run: the four passes in the script's fixed order, each taking the
    report the previous one returned, starting from an empty report. */
module Pipeline {
  import opened Wrappers
  import opened Report
  import opened RelocationMerge
  import opened RenovateMerge
  import opened DependencyTrackMerge

  /** The report the script writes, or the error that aborts it before writing.
      Only the update-suggestion pass can fail. */
  function BuildReport(
    relocationFiles: seq<RelocationFile>,
    renovateFiles: seq<RenovateLog>,
    buildToolArg: string,
    findings: seq<Finding>,
    violations: seq<ViolationEntry>): (r: Result<Report, MergeError>)
    ensures r.Failure? <==>
              exists i :: 0 <= i < |renovateFiles| && !HasPackageFile(renovateFiles[i], ParseBuildTool(buildToolArg))
    ensures |renovateFiles| > 0 && buildToolArg != "Maven" && buildToolArg != "Gradle" ==>
              r == Failure(UnknownBuildTool)
    ensures r.Success? ==> UniqueKeys(r.value)
    ensures r.Success? ==>
              var relocated := RelocationPass([], relocationFiles);
              && KeysKept(relocated, r.value)
              && forall i :: 0 <= i < |relocated| ==>
                   && r.value[i].scope == relocated[i].scope
                   && r.value[i].lastUpdatedDate == relocated[i].lastUpdatedDate
                   && r.value[i].relocations == relocated[i].relocations
  {
    var relocated := RelocationPass([], relocationFiles);
    var updated :- RenovatePass(relocated, renovateFiles, ParseBuildTool(buildToolArg));
    var withVulnerabilities := VulnerabilityPass(updated, findings);
    Success(PolicyViolationPass(withVulnerabilities, violations))
  }

  // The worked example: one relocated dependency `a:b:1.0`, one Maven update
  // suggestion for it to 1.1 and one vulnerability against it.

  const ExampleDependency := Dependency(Defined("a"), Defined("b"), Defined("1.0"), Defined("compile"), Defined("2024-01-01"), None)
  const ExampleUpdate := Update("non-major", "1.1", "minor")
  const ExampleEntry := RenovateDependency("a:b", Defined("1.0"), [ExampleUpdate])
  const ExampleLog := RenovateLog(RenovateConfig([PackageFile([ExampleEntry])], []))
  const ExampleVulnerability := Vulnerability("CVE-1", "", "HIGH", Opaque("0.1"))
  const ExampleFinding := Finding(Component(Defined("a"), Defined("b"), Defined("1.0"), "uuid"), ExampleVulnerability)
  const ExampleKey := Coordinate(Defined("a"), Defined("b"), Defined("1.0"))

  const ExampleRelocated: Report :=
    [Record(Defined("a"), Defined("b"), Defined("1.0"), [], Defined("compile"), Defined("2024-01-01"), [], [], None)]
  const ExampleUpdated: Report :=
    [ExampleRelocated[0].(newVersions := [UpdateInfo("", "1.1", "minor")])]

  lemma ExampleRelocation()
    ensures RelocationPass([], [RelocationFile([ExampleDependency])]) == ExampleRelocated
  {
    assert AllDependencies([RelocationFile([ExampleDependency])]) == [ExampleDependency];
    assert [ExampleDependency][1..] == [];
  }

  lemma ExampleEntries()
    ensures AllEntries([ExampleLog], Some(Maven)) == Success([ExampleEntry])
  {
    assert SelectEntries(ExampleLog, Some(Maven)) == Success([ExampleEntry]);
    assert AllEntries([ExampleLog][1..], Some(Maven)) == Success([]);
    assert [ExampleEntry] + [] == [ExampleEntry];
  }

  lemma ExampleUpgrade()
    ensures ApplyDependencies(ExampleRelocated, [ExampleEntry]) == ExampleUpdated
  {
    var entry := ExampleEntry;
    assert "a:b" == "a" + ":" + "b";
    PackageOfDepName("a", "b");
    assert EntryKey(entry) == ExampleKey;
    assert IsFirstKey(ExampleRelocated, 0, ExampleKey);
    assert UpdateInformation([ExampleUpdate]) == [UpdateInfo("", "1.1", "minor")];
    assert [entry][1..] == [];
    var updated := ApplyDependencies(ExampleRelocated, [entry]);
    assert updated == ApplyDependencies(ApplyDependency(ExampleRelocated, entry), []);
    assert updated == ExampleRelocated[0 := ExampleRelocated[0].(newVersions := [UpdateInfo("", "1.1", "minor")])];
  }

  lemma ExampleRenovate()
    ensures RenovatePass(ExampleRelocated, [ExampleLog], Some(Maven)) == Success(ExampleUpdated)
  {
    ExampleEntries();
    ExampleUpgrade();
  }

  lemma ExampleVulnerabilityMerge()
    ensures VulnerabilityPass(ExampleUpdated, [ExampleFinding]) ==
              [ExampleUpdated[0].(vulnerabilities := [ExampleVulnerability])]
  {
    assert ComponentKey(ExampleFinding.component) == ExampleKey;
    assert IsFirstKey(ExampleUpdated, 0, ExampleKey);
    assert [ExampleFinding][1..] == [];
    assert VulnerabilityPass(ExampleUpdated, [ExampleFinding]) == AddFinding(ExampleUpdated, ExampleFinding);
    assert ExampleUpdated[0].vulnerabilities + [ExampleVulnerability] == [ExampleVulnerability];
  }

  /** The worked example merges into exactly one record for `a:b:1.0` carrying
      the relocation data, the upgrade to 1.1 and the vulnerability. */
  lemma EndToEndExample()
    ensures BuildReport([RelocationFile([ExampleDependency])], [ExampleLog], "Maven", [ExampleFinding], []) ==
              Success([Record(Defined("a"), Defined("b"), Defined("1.0"), [UpdateInfo("", "1.1", "minor")],
                              Defined("compile"), Defined("2024-01-01"), [], [ExampleVulnerability], None)])
  {
    ExampleRelocation();
    ExampleRenovate();
    ExampleVulnerabilityMerge();
  }
}

=== FILE: relocation.dfy ===
/** First pass: dependencies from every `dependency-relocated-date.json`.
    A coordinate seen before is ignored (first write wins). */
module RelocationMerge {
  import opened Wrappers
  import opened Report
  import Seqs

  /** One entry of a relocation file's `dependencies` list. */
  datatype Dependency = Dependency(
    groupId: Field,
    artifactId: Field,
    version: Field,
    scope: Field,
    lastUpdatedDate: Field,
    relocations: Option<seq<Opaque>>)

  datatype RelocationFile = RelocationFile(dependencies: seq<Dependency>)

  function DependencyKey(d: Dependency): Coordinate {
    Coordinate(d.groupId, d.artifactId, d.version)
  }

  /** The record a new coordinate gets: no upgrades or vulnerabilities yet,
      relocations copied or defaulted to none. */
  function FromDependency(d: Dependency): (r: Record)
    ensures r.Key() == DependencyKey(d)
    ensures r.newVersions == [] && r.vulnerabilities == [] && r.policyViolations.None?
    ensures r.scope == d.scope && r.lastUpdatedDate == d.lastUpdatedDate
    ensures r.relocations == d.relocations.GetOr([])
  {
    Record(d.groupId, d.artifactId, d.version, [], d.scope, d.lastUpdatedDate,
           d.relocations.GetOr([]), [], None)
  }

  /** One iteration of the inner loop. */
  function AddDependency(report: Report, d: Dependency): (r: Report)
    ensures HasKey(report, DependencyKey(d)) ==> r == report
    ensures !HasKey(report, DependencyKey(d)) ==> r == report + [FromDependency(d)]
  {
    match FindKey(report, DependencyKey(d))
    case Some(_) => report
    case None => report + [FromDependency(d)]
  }

  /** The inner loop over one list of dependencies. */
  function AddDependencies(report: Report, deps: seq<Dependency>): (r: Report)
    ensures report <= r
    ensures |r| <= |report| + |deps|
    ensures forall i :: |report| <= i < |r| ==> !HasKey(report, r[i].Key())
    ensures UniqueKeys(report) ==> UniqueKeys(r)
    decreases |deps|
  {
    if |deps| == 0 then report
    else AddDependencies(AddDependency(report, deps[0]), deps[1..])
  }

  /** All files' dependency lists, in file order. */
  function AllDependencies(files: seq<RelocationFile>): (deps: seq<Dependency>)
    ensures deps == Seqs.Concat(seq(|files|, i requires 0 <= i < |files| => files[i].dependencies))
    ensures forall d :: d in deps <==> exists i :: 0 <= i < |files| && d in files[i].dependencies
  {
    if |files| == 0 then []
    else
      assert forall i :: 1 <= i < |files| ==> files[i] == files[1..][i - 1];
      assert seq(|files|, i requires 0 <= i < |files| => files[i].dependencies)[1..] ==
             seq(|files[1..]|, i requires 0 <= i < |files[1..]| => files[1..][i].dependencies);
      files[0].dependencies + AllDependencies(files[1..])
  }

  /** `getTreeInformationWithRelocations`: the nested file/dependency loops are
      one fold over the concatenated dependency lists. */
  function RelocationPass(report: Report, files: seq<RelocationFile>): (r: Report)
    ensures report <= r
    ensures |r| <= |report| + |AllDependencies(files)|
    ensures UniqueKeys(report) ==> UniqueKeys(r)
  {
    AddDependencies(report, AllDependencies(files))
  }

  /** Adding a dependency with another coordinate does not bring in `k`. */
  lemma OtherKeyAdded(report: Report, d: Dependency, k: Coordinate)
    requires !HasKey(report, k) && DependencyKey(d) != k
    ensures !HasKey(AddDependency(report, d), k)
  {
    var next := AddDependency(report, d);
    assert forall m :: 0 <= m < |report| ==> next[m] == report[m];
    assert |next| > |report| ==> next[|report|].Key() == DependencyKey(d);
  }

  /** Dropping the head dependency shifts "no earlier dependency has the
      coordinate of `deps[j]`" down by one. */
  lemma EarlierDistinct(deps: seq<Dependency>, j: nat)
    requires 0 < j < |deps|
    requires forall i :: 0 <= i < j ==> DependencyKey(deps[i]) != DependencyKey(deps[j])
    ensures deps[1..][j - 1] == deps[j]
    ensures forall i :: 0 <= i < j - 1 ==> DependencyKey(deps[1..][i]) != DependencyKey(deps[1..][j - 1])
  {
    forall i | 0 <= i < j - 1
      ensures DependencyKey(deps[1..][i]) != DependencyKey(deps[1..][j - 1])
    {
      assert deps[1..][i] == deps[i + 1];
    }
  }

  /** The head dependency with a new coordinate is the record the report keeps for it. */
  lemma HeadWins(report: Report, deps: seq<Dependency>)
    requires 0 < |deps|
    requires !HasKey(report, DependencyKey(deps[0]))
    ensures HasKey(AddDependencies(report, deps), DependencyKey(deps[0]))
    ensures OnlyRecordFor(AddDependencies(report, deps), DependencyKey(deps[0]), FromDependency(deps[0]))
  {
    var k := DependencyKey(deps[0]);
    var r := AddDependencies(report, deps);
    var next := AddDependency(report, deps[0]);
    assert r == AddDependencies(next, deps[1..]);
    assert next == report + [FromDependency(deps[0])];
    assert next[|report|].Key() == k;
    assert r[|report|] == next[|report|];
    assert HasKey(next, k);
    assert forall m :: 0 <= m < |report| ==> r[m].Key() != k;
    assert forall m :: |next| <= m < |r| ==> r[m].Key() != k;
    forall i | 0 <= i < |r| && r[i].Key() == k
      ensures r[i] == FromDependency(deps[0])
    {
      assert i == |report|;
    }
  }

  /** First write wins: if `d`, at position `j` of `deps`, is the first dependency
      with its coordinate and the report did not have it, the result has that
      coordinate and every record carrying it is the one built from `d`; later
      duplicates are dropped. */
  lemma {:induction false} FirstWriteWins(report: Report, deps: seq<Dependency>, j: nat, d: Dependency)
    requires j < |deps| && deps[j] == d
    requires !HasKey(report, DependencyKey(d))
    requires forall i :: 0 <= i < j ==> DependencyKey(deps[i]) != DependencyKey(d)
    ensures HasKey(AddDependencies(report, deps), DependencyKey(d))
    ensures OnlyRecordFor(AddDependencies(report, deps), DependencyKey(d), FromDependency(d))
    decreases j
  {
    if j == 0 {
      HeadWins(report, deps);
    } else {
      var next := AddDependency(report, deps[0]);
      assert !HasKey(next, DependencyKey(d)) by {
        OtherKeyAdded(report, deps[0], DependencyKey(d));
      }
      assert deps[1..][j - 1] == d && forall i :: 0 <= i < j - 1 ==> DependencyKey(deps[1..][i]) != DependencyKey(d) by {
        EarlierDistinct(deps, j);
      }
      FirstWriteWins(next, deps[1..], j - 1, d);
      assert AddDependencies(report, deps) == AddDependencies(next, deps[1..]);
    }
  }

  /** First write wins across files: the relocation files are read in order and
      each file's dependencies in list order, so the first dependency with a new
      coordinate over all files is the one the report keeps for it. */
  lemma PassFirstWriteWins(report: Report, files: seq<RelocationFile>, j: nat)
    requires j < |AllDependencies(files)|
    requires !HasKey(report, DependencyKey(AllDependencies(files)[j]))
    requires forall i :: 0 <= i < j ==> DependencyKey(AllDependencies(files)[i]) != DependencyKey(AllDependencies(files)[j])
    ensures HasKey(RelocationPass(report, files), DependencyKey(AllDependencies(files)[j]))
    ensures OnlyRecordFor(RelocationPass(report, files), DependencyKey(AllDependencies(files)[j]),
                          FromDependency(AllDependencies(files)[j]))
  {
    FirstWriteWins(report, AllDependencies(files), j, AllDependencies(files)[j]);
    assert RelocationPass(report, files) == AddDependencies(report, AllDependencies(files));
  }

  /** After a dependency, its coordinate is in the report. */
  lemma DependencyKeyPresent(report: Report, d: Dependency)
    ensures HasKey(AddDependency(report, d), DependencyKey(d))
  {
    if !HasKey(report, DependencyKey(d)) {
      assert AddDependency(report, d)[|report|].Key() == DependencyKey(d);
    }
  }

  /** Some dependency in `deps` has coordinate `k`. */
  predicate Listed(deps: seq<Dependency>, k: Coordinate) {
    exists j :: 0 <= j < |deps| && DependencyKey(deps[j]) == k
  }

  /** Every dependency in `deps` with coordinate `b` comes after one with coordinate `a`. */
  predicate ListedBefore(deps: seq<Dependency>, a: Coordinate, b: Coordinate) {
    forall n :: 0 <= n < |deps| && DependencyKey(deps[n]) == b ==>
      exists m :: 0 <= m < n && DependencyKey(deps[m]) == a
  }

  /** `Listed` seen from the tail of the list. */
  lemma ListedTail(deps: seq<Dependency>, k: Coordinate)
    requires 0 < |deps|
    requires DependencyKey(deps[0]) == k || Listed(deps[1..], k)
    ensures Listed(deps, k)
  {
    if DependencyKey(deps[0]) != k {
      var j :| 0 <= j < |deps[1..]| && DependencyKey(deps[1..][j]) == k;
      assert deps[1..][j] == deps[j + 1];
    }
  }

  /** `ListedBefore` seen from the tail of the list. */
  lemma ListedBeforeTail(deps: seq<Dependency>, a: Coordinate, b: Coordinate)
    requires 0 < |deps| && DependencyKey(deps[0]) != b
    requires DependencyKey(deps[0]) == a || ListedBefore(deps[1..], a, b)
    ensures ListedBefore(deps, a, b)
  {
    forall n | 0 <= n < |deps| && DependencyKey(deps[n]) == b
      ensures exists m :: 0 <= m < n && DependencyKey(deps[m]) == a
    {
      assert deps[1..][n - 1] == deps[n];
      if DependencyKey(deps[0]) != a {
        var m :| 0 <= m < n - 1 && DependencyKey(deps[1..][m]) == a;
        assert deps[1..][m] == deps[m + 1];
      }
    }
  }

  /** Nothing is appended without a dependency: every record past the old end
      has the coordinate of some dependency in `deps`. */
  lemma {:induction false} AppendedFromDependencies(report: Report, deps: seq<Dependency>)
    ensures var r := AddDependencies(report, deps);
            forall i :: |report| <= i < |r| ==> Listed(deps, r[i].Key())
    decreases |deps|
  {
    if |deps| > 0 {
      var r := AddDependencies(report, deps);
      var next := AddDependency(report, deps[0]);
      assert r == AddDependencies(next, deps[1..]);
      AppendedFromDependencies(next, deps[1..]);
      forall i | |report| <= i < |r|
        ensures Listed(deps, r[i].Key())
      {
        if i < |next| {
          assert next == report + [FromDependency(deps[0])];
          assert r[i] == next[i];
        }
        ListedTail(deps, r[i].Key());
      }
    }
  }

  /** Records are appended in the order their coordinates first occur in `deps`:
      of two appended records, the earlier one's coordinate is listed before every
      dependency carrying the later one's. */
  lemma {:induction false} AppendedInOrder(report: Report, deps: seq<Dependency>)
    ensures var r := AddDependencies(report, deps);
            forall i, i' :: |report| <= i < i' < |r| ==> ListedBefore(deps, r[i].Key(), r[i'].Key())
    decreases |deps|
  {
    if |deps| > 0 {
      var r := AddDependencies(report, deps);
      var next := AddDependency(report, deps[0]);
      assert r == AddDependencies(next, deps[1..]);
      AppendedInOrder(next, deps[1..]);
      DependencyKeyPresent(report, deps[0]);
      forall i, i' | |report| <= i < i' < |r|
        ensures ListedBefore(deps, r[i].Key(), r[i'].Key())
      {
        assert !HasKey(next, r[i'].Key());
        if i < |next| {
          assert next == report + [FromDependency(deps[0])];
          assert r[i] == next[i];
        }
        ListedBeforeTail(deps, r[i].Key(), r[i'].Key());
      }
    }
  }

  /** Across all relocation files, every appended record has the coordinate of
      some dependency listed in one of them. */
  lemma PassAppendedFromDependencies(report: Report, files: seq<RelocationFile>)
    ensures var r := RelocationPass(report, files);
            forall i :: |report| <= i < |r| ==> Listed(AllDependencies(files), r[i].Key())
  {
    AppendedFromDependencies(report, AllDependencies(files));
    assert RelocationPass(report, files) == AddDependencies(report, AllDependencies(files));
  }

  /** Across all relocation files, records are appended in the order their
      coordinates first occur, files in order and each list in its own order. */
  lemma PassAppendedInOrder(report: Report, files: seq<RelocationFile>)
    ensures var r := RelocationPass(report, files);
            forall i, i' :: |report| <= i < i' < |r| ==> ListedBefore(AllDependencies(files), r[i].Key(), r[i'].Key())
  {
    AppendedInOrder(report, AllDependencies(files));
    assert RelocationPass(report, files) == AddDependencies(report, AllDependencies(files));
  }

  /** A coordinate already in the report keeps its record: no later relocation
      file changes it. */
  lemma ExistingRecordKept(report: Report, files: seq<RelocationFile>, i: nat)
    requires i < |report|
    ensures i < |RelocationPass(report, files)|
    ensures RelocationPass(report, files)[i] == report[i]
  {
  }
}

=== FILE: renovate.dfy ===
/** Second pass: update suggestions from every `renovate-filtered.json`.
    A matched coordinate has its upgrade list replaced (last write wins). */
module RenovateMerge {
  import opened Wrappers
  import opened Report
  import Seqs

  /** One update candidate Renovate proposes for a dependency. */
  datatype Update = Update(bucket: string, newVersion: string, updateType: string)

  /** One entry of a package file's `deps` list. */
  datatype RenovateDependency = RenovateDependency(depName: string, currentValue: Field, updates: seq<Update>)

  datatype PackageFile = PackageFile(deps: seq<RenovateDependency>)

  /** The `config` object: one list of package files per package manager. */
  datatype RenovateConfig = RenovateConfig(maven: seq<PackageFile>, gradle: seq<PackageFile>)

  datatype RenovateLog = RenovateLog(config: RenovateConfig)

  /** The two build tools the script recognises. */
  datatype BuildTool = Maven | Gradle

  /** Why the script aborts: an unrecognised build tool leaves the entry list
      `null`, and a log without a package file for the tool has no `[0]`. */
  datatype MergeError = UnknownBuildTool | MissingPackageFile(tool: BuildTool)

  /** The command-line argument compared, case-sensitively, with the two names. */
  function ParseBuildTool(arg: string): (r: Option<BuildTool>)
    ensures r == Some(Maven) <==> arg == "Maven"
    ensures r == Some(Gradle) <==> arg == "Gradle"
    ensures r.None? <==> arg != "Maven" && arg != "Gradle"
  {
    if arg == "Maven" then Some(Maven)
    else if arg == "Gradle" then Some(Gradle)
    else None
  }

  // ---------------------------------------------------------------------------
  // getUpdateInformation
  // ---------------------------------------------------------------------------

  /** Only candidates in the "major" or "non-major" bucket are reported. */
  predicate IsReported(u: Update) {
    u.bucket == "major" || u.bucket == "non-major"
  }

  /** The target version always goes to `non-major`; `major` stays empty. */
  function ToUpdateInfo(u: Update): UpdateInfo {
    UpdateInfo("", u.newVersion, u.updateType)
  }

  /** Reference definition: the reported candidates, mapped, in their order. */
  function UpdateInformation(updates: seq<Update>): (r: seq<UpdateInfo>)
    ensures |r| <= |updates|
    ensures forall k :: 0 <= k < |r| ==> r[k].major == ""
    ensures r == [] <==> forall i :: 0 <= i < |updates| ==> !IsReported(updates[i])
  {
    if |updates| == 0 then []
    else
      var rest := UpdateInformation(updates[1..]);
      assert forall i :: 1 <= i < |updates| ==> updates[i] == updates[1..][i - 1];
      if IsReported(updates[0]) then [ToUpdateInfo(updates[0])] + rest else rest
  }

  /** Soundness of the filter: every output item is the mapping of a "major"
      or "non-major" candidate. */
  lemma {:induction false} UpdateInformationSound(updates: seq<Update>)
    ensures forall k :: 0 <= k < |UpdateInformation(updates)| ==>
              exists i :: 0 <= i < |updates| && IsReported(updates[i]) && UpdateInformation(updates)[k] == ToUpdateInfo(updates[i])
    decreases |updates|
  {
    if |updates| > 0 {
      var tail := updates[1..];
      UpdateInformationSound(tail);
      var r := UpdateInformation(updates);
      var rest := UpdateInformation(tail);
      var offset := if IsReported(updates[0]) then 1 else 0;
      assert r == if IsReported(updates[0]) then [ToUpdateInfo(updates[0])] + rest else rest;
      forall k | 0 <= k < |r|
        ensures exists i :: 0 <= i < |updates| && IsReported(updates[i]) && r[k] == ToUpdateInfo(updates[i])
      {
        if k < offset {
          assert r[0] == ToUpdateInfo(updates[0]);
        } else {
          assert r[k] == rest[k - offset];
          var i :| 0 <= i < |tail| && IsReported(tail[i]) && rest[k - offset] == ToUpdateInfo(tail[i]);
          assert updates[i + 1] == tail[i];
        }
      }
    } else {
      assert UpdateInformation(updates) == [];
    }
  }

  /** Completeness of the filter: every "major" or "non-major" candidate is mapped
      into the output. */
  lemma {:induction false} UpdateInformationComplete(updates: seq<Update>)
    ensures forall i :: 0 <= i < |updates| && IsReported(updates[i]) ==>
              ToUpdateInfo(updates[i]) in UpdateInformation(updates)
    decreases |updates|
  {
    if |updates| > 0 {
      var tail := updates[1..];
      UpdateInformationComplete(tail);
      var r := UpdateInformation(updates);
      var rest := UpdateInformation(tail);
      assert r == if IsReported(updates[0]) then [ToUpdateInfo(updates[0])] + rest else rest;
      forall i | 1 <= i < |updates| && IsReported(updates[i])
        ensures ToUpdateInfo(updates[i]) in r
      {
        assert tail[i - 1] == updates[i];
        assert ToUpdateInfo(tail[i - 1]) in rest;
      }
    }
  }

  /** The filter keeps order: it distributes over concatenation. */
  lemma {:induction false} UpdateInformationAppend(a: seq<Update>, b: seq<Update>)
    ensures UpdateInformation(a + b) == UpdateInformation(a) + UpdateInformation(b)
    decreases |a|
  {
    if |a| > 0 {
      var h := a[0];
      assert (a + b)[0] == h;
      assert (a + b)[1..] == a[1..] + b;
      UpdateInformationAppend(a[1..], b);
      var hd := if IsReported(h) then [ToUpdateInfo(h)] else [];
      assert UpdateInformation(a + b) == hd + UpdateInformation(a[1..] + b);
      assert UpdateInformation(a) == hd + UpdateInformation(a[1..]);
      assert hd + (UpdateInformation(a[1..]) + UpdateInformation(b))
          == (hd + UpdateInformation(a[1..])) + UpdateInformation(b);
    } else {
      assert a + b == b;
    }
  }

  /** `getUpdateInformation` as the script writes it: one pass pushing each
      reported candidate. */
  method GetUpdateInformation(updates: seq<Update>) returns (list: seq<UpdateInfo>)
    ensures list == UpdateInformation(updates)
  {
    list := [];
    var n := 0;
    while n < |updates|
      invariant 0 <= n <= |updates|
      invariant list == UpdateInformation(updates[..n])
    {
      var update := updates[n];
      UpdateInformationAppend(updates[..n], [update]);
      assert updates[..n + 1] == updates[..n] + [update];
      if update.bucket == "non-major" || update.bucket == "major" {
        list := list + [UpdateInfo("", update.newVersion, update.updateType)];
      }
      n := n + 1;
    }
    assert updates[..n] == updates;
  }

  // ---------------------------------------------------------------------------
  // getRenovateInformation
  // ---------------------------------------------------------------------------

  /** `depName.split(":")[0]`: the name up to its first colon. */
  function GroupIdOf(depName: string): (r: Field)
    ensures r.Defined? && Seqs.IsFirstPiece(r.text, depName, ':')
  {
    Seqs.SplitHead(depName, ':');
    Defined(Seqs.Split(depName, ':')[0])
  }

  /** `depName.split(":")[1]`: the name between its first and second colon,
      undefined when the name has no colon. */
  function ArtifactIdOf(depName: string): (r: Field)
    ensures r.Undefined? <==> ':' !in depName
    ensures r.Defined? ==>
              |GroupIdOf(depName).text| < |depName| &&
              Seqs.IsFirstPiece(r.text, depName[|GroupIdOf(depName).text| + 1..], ':')
  {
    var parts := Seqs.Split(depName, ':');
    Seqs.SplitHead(depName, ':');
    if |parts| >= 2 then
      Seqs.SplitHead(depName[|parts[0]| + 1..], ':');
      Defined(parts[1])
    else Undefined
  }

  /** A "group:artifact" name yields exactly those two fields. */
  lemma {:induction false} PackageOfDepName(g: string, a: string)
    requires ':' !in g && ':' !in a
    ensures GroupIdOf(g + ":" + a) == Defined(g)
    ensures ArtifactIdOf(g + ":" + a) == Defined(a)
  {
    assert Seqs.Join([g, a], ':') == g + ":" + a;
    Seqs.SplitJoin([g, a], ':');
  }

  /** The coordinate an entry looks up and inserts: the two leading colon-separated
      pieces of `depName`, and `currentValue` as the version. */
  function EntryKey(e: RenovateDependency): (k: Coordinate)
    ensures k.groupId.Defined? && Seqs.IsFirstPiece(k.groupId.text, e.depName, ':')
    ensures k.artifactId.Undefined? <==> ':' !in e.depName
    ensures k.artifactId.Defined? ==>
              |k.groupId.text| < |e.depName| && Seqs.IsFirstPiece(k.artifactId.text, e.depName[|k.groupId.text| + 1..], ':')
    ensures k.version == e.currentValue
  {
    Coordinate(GroupIdOf(e.depName), ArtifactIdOf(e.depName), e.currentValue)
  }

  /** Entry `e` rewrites the record with coordinate `k`. */
  predicate Targets(e: RenovateDependency, k: Coordinate) {
    |e.updates| > 0 && EntryKey(e) == k
  }

  /** One iteration over `entries`: skip an entry without updates, replace the
      first matching record's `newVersions`, or append a fresh record. */
  function ApplyDependency(report: Report, e: RenovateDependency): (r: Report)
    ensures |e.updates| == 0 ==> r == report
    ensures |e.updates| > 0 ==>
              forall i :: IsFirstKey(report, i, EntryKey(e)) ==>
                r == report[i := report[i].(newVersions := UpdateInformation(e.updates))]
    ensures |e.updates| > 0 && !HasKey(report, EntryKey(e)) ==>
              r == report + [NewRecord(EntryKey(e)).(newVersions := UpdateInformation(e.updates))]
    ensures KeysKept(report, r) && |r| <= |report| + 1
    ensures forall i :: 0 <= i < |report| ==> r[i] == report[i].(newVersions := r[i].newVersions)
    ensures UniqueKeys(report) ==> UniqueKeys(r)
  {
    if |e.updates| == 0 then report
    else
      var info := UpdateInformation(e.updates);
      match FindKey(report, EntryKey(e))
      case Some(i) => report[i := report[i].(newVersions := info)]
      case None => report + [NewRecord(EntryKey(e)).(newVersions := info)]
  }

  /** The loop over one list of entries. */
  function ApplyDependencies(report: Report, entries: seq<RenovateDependency>): (r: Report)
    ensures KeysKept(report, r)
    ensures |r| <= |report| + |entries|
    ensures forall i :: |report| <= i < |r| ==> !HasKey(report, r[i].Key())
    ensures forall i :: 0 <= i < |report| ==> r[i] == report[i].(newVersions := r[i].newVersions)
    ensures UniqueKeys(report) ==> UniqueKeys(r)
    decreases |entries|
  {
    if |entries| == 0 then report
    else ApplyDependencies(ApplyDependency(report, entries[0]), entries[1..])
  }

  /** The log has the package file the build tool selects. */
  predicate HasPackageFile(log: RenovateLog, tool: Option<BuildTool>) {
    match tool
    case None => false
    case Some(Maven) => |log.config.maven| > 0
    case Some(Gradle) => |log.config.gradle| > 0
  }

  /** `data.config.maven[0].deps` or `data.config.gradle[0].deps`; only the
      first package file of the tool is read. */
  function SelectEntries(log: RenovateLog, tool: Option<BuildTool>): (r: Result<seq<RenovateDependency>, MergeError>)
    ensures r.Success? <==> HasPackageFile(log, tool)
    ensures tool.None? ==> r == Failure(UnknownBuildTool)
    ensures tool == Some(Maven) && r.Success? ==> r.value == log.config.maven[0].deps
    ensures tool == Some(Gradle) && r.Success? ==> r.value == log.config.gradle[0].deps
  {
    match tool
    case None => Failure(UnknownBuildTool)
    case Some(Maven) =>
      if |log.config.maven| > 0 then Success(log.config.maven[0].deps) else Failure(MissingPackageFile(Maven))
    case Some(Gradle) =>
      if |log.config.gradle| > 0 then Success(log.config.gradle[0].deps) else Failure(MissingPackageFile(Gradle))
  }

  /** Each file's entry list as `SelectEntries` yields it, empty for a file the
      tool cannot read. */
  function EntryLists(files: seq<RenovateLog>, tool: Option<BuildTool>): (lists: seq<seq<RenovateDependency>>)
    ensures |lists| == |files|
  {
    seq(|files|, i requires 0 <= i < |files| => SelectEntries(files[i], tool).GetOr([]))
  }

  /** The entry lists of all files, in file order, or the error of the first
      file the build tool cannot read. */
  function AllEntries(files: seq<RenovateLog>, tool: Option<BuildTool>): (r: Result<seq<RenovateDependency>, MergeError>)
    ensures r.Failure? <==> exists i :: 0 <= i < |files| && !HasPackageFile(files[i], tool)
    ensures |files| > 0 && tool.None? ==> r == Failure(UnknownBuildTool)
    ensures r.Success? ==> r.value == Seqs.Concat(EntryLists(files, tool))
    decreases |files|
  {
    if |files| == 0 then Success([])
    else
      assert forall i :: 1 <= i < |files| ==> files[i] == files[1..][i - 1];
      assert EntryLists(files, tool)[1..] == EntryLists(files[1..], tool);
      var entries :- SelectEntries(files[0], tool);
      var rest :- AllEntries(files[1..], tool);
      Success(entries + rest)
  }

  /** `getRenovateInformation`: the nested file/entry loops are one fold over the
      concatenated entry lists. A file the tool cannot read aborts the run, so no
      report comes out at all; with no files an unknown tool goes unnoticed. */
  function RenovatePass(report: Report, files: seq<RenovateLog>, tool: Option<BuildTool>): (r: Result<Report, MergeError>)
    ensures r.Failure? <==> exists i :: 0 <= i < |files| && !HasPackageFile(files[i], tool)
    ensures |files| > 0 && tool.None? ==> r == Failure(UnknownBuildTool)
    ensures r.Success? ==> KeysKept(report, r.value)
    ensures r.Success? ==> |r.value| <= |report| + |Seqs.Concat(EntryLists(files, tool))|
    ensures r.Success? ==> forall i :: 0 <= i < |report| ==>
              r.value[i] == report[i].(newVersions := r.value[i].newVersions)
    ensures r.Success? && UniqueKeys(report) ==> UniqueKeys(r.value)
  {
    var entries :- AllEntries(files, tool);
    Success(ApplyDependencies(report, entries))
  }

  /** One entry seen from the record that is first with coordinate `k`: it stays
      first, and only an entry targeting `k` rewrites it. */
  lemma ApplyDependencyAt(report: Report, e: RenovateDependency, idx: int, k: Coordinate)
    requires IsFirstKey(report, idx, k)
    ensures IsFirstKey(ApplyDependency(report, e), idx, k)
    ensures ApplyDependency(report, e)[idx] ==
              if Targets(e, k) then report[idx].(newVersions := UpdateInformation(e.updates)) else report[idx]
  {
    var r := ApplyDependency(report, e);
    if |e.updates| > 0 && !HasKey(report, EntryKey(e)) {
      assert r[..|report|] == report;
    } else if |e.updates| > 0 {
      var j := FindKey(report, EntryKey(e)).value;
      assert r == report[j := report[j].(newVersions := UpdateInformation(e.updates))];
    }
  }

  /** Entries that never target `k` leave the first record with `k` untouched. */
  lemma {:induction false} UntargetedRecordKept(report: Report, entries: seq<RenovateDependency>, idx: int, k: Coordinate)
    requires IsFirstKey(report, idx, k)
    requires forall i :: 0 <= i < |entries| ==> !Targets(entries[i], k)
    ensures IsFirstKey(ApplyDependencies(report, entries), idx, k)
    ensures ApplyDependencies(report, entries)[idx] == report[idx]
    decreases |entries|
  {
    if |entries| > 0 {
      ApplyDependencyAt(report, entries[0], idx, k);
      UntargetedRecordKept(ApplyDependency(report, entries[0]), entries[1..], idx, k);
    }
  }

  /** An entry targeting `k` leaves the first record with `k` holding its upgrade
      list: the old first record, or a record inserted at the end. */
  lemma ApplyTargeting(report: Report, e: RenovateDependency, k: Coordinate)
    requires Targets(e, k)
    ensures HasKey(ApplyDependency(report, e), k)
    ensures forall idx :: IsFirstKey(ApplyDependency(report, e), idx, k) ==>
              ApplyDependency(report, e)[idx] ==
                (if idx < |report| then report[idx] else NewRecord(k)).(newVersions := UpdateInformation(e.updates))
  {
    var r := ApplyDependency(report, e);
    if HasKey(report, k) {
      var j := FindKey(report, k).value;
      assert r == report[j := report[j].(newVersions := UpdateInformation(e.updates))];
      assert r[j].Key() == k;
    } else {
      assert r == report + [NewRecord(k).(newVersions := UpdateInformation(e.updates))];
      assert r[|report|].Key() == k;
    }
  }

  /** The last targeting entry comes first: what it writes is what stays. */
  lemma LastIsFirst(report: Report, entries: seq<RenovateDependency>, k: Coordinate)
    requires |entries| > 0 && Targets(entries[0], k)
    requires forall i :: 0 < i < |entries| ==> !Targets(entries[i], k)
    ensures HasKey(ApplyDependencies(report, entries), k)
    ensures forall idx :: IsFirstKey(ApplyDependencies(report, entries), idx, k) ==>
              ApplyDependencies(report, entries)[idx] ==
                (if idx < |report| then report[idx] else NewRecord(k)).(newVersions := UpdateInformation(entries[0].updates))
  {
    var next := ApplyDependency(report, entries[0]);
    assert ApplyDependencies(report, entries) == ApplyDependencies(next, entries[1..]);
    ApplyTargeting(report, entries[0], k);
    var idx := FindKey(next, k).value;
    forall i | 0 <= i < |entries[1..]|
      ensures !Targets(entries[1..][i], k)
    {
      assert entries[1..][i] == entries[i + 1];
    }
    UntargetedRecordKept(next, entries[1..], idx, k);
  }

  /** A fact about the first record with `k`, stated relative to the report
      after entry `e`, restated relative to the report before it. */
  lemma StepBack(report: Report, e: RenovateDependency, r: Report, k: Coordinate, info: seq<UpdateInfo>)
    requires KeysKept(ApplyDependency(report, e), r)
    requires forall idx :: IsFirstKey(r, idx, k) ==>
               r[idx] == (if idx < |ApplyDependency(report, e)| then ApplyDependency(report, e)[idx] else NewRecord(k)).(newVersions := info)
    ensures forall idx :: IsFirstKey(r, idx, k) ==>
              r[idx] == (if idx < |report| then report[idx] else NewRecord(k)).(newVersions := info)
  {
    var next := ApplyDependency(report, e);
    forall idx | IsFirstKey(r, idx, k)
      ensures r[idx] == (if idx < |report| then report[idx] else NewRecord(k)).(newVersions := info)
    {
      if idx < |report| {
        assert next[idx] == report[idx].(newVersions := next[idx].newVersions);
      } else if idx < |next| {
        assert next == report + [NewRecord(EntryKey(e)).(newVersions := UpdateInformation(e.updates))];
        assert next[idx].Key() == k;
      }
    }
  }

  /** Dropping the head entry shifts "no entry after `j` targets `k`" down by one. */
  lemma LaterUntargeted(entries: seq<RenovateDependency>, j: nat, k: Coordinate)
    requires 0 < j < |entries|
    requires forall i :: j < i < |entries| ==> !Targets(entries[i], k)
    ensures entries[1..][j - 1] == entries[j]
    ensures forall i :: j - 1 < i < |entries[1..]| ==> !Targets(entries[1..][i], k)
  {
    forall i | j - 1 < i < |entries[1..]|
      ensures !Targets(entries[1..][i], k)
    {
      assert entries[1..][i] == entries[i + 1];
    }
  }

  /** Last write wins: after the pass's fold, the first record with coordinate `k`
      carries the upgrade list of the LAST entry targeting `k`. If the record was
      there before, every other field is as it was; if an entry inserted it during
      the fold, every other field is the inserted record's. */
  lemma {:induction false} LastWriteWins(report: Report, entries: seq<RenovateDependency>, k: Coordinate, j: nat)
    requires j < |entries| && Targets(entries[j], k)
    requires forall i :: j < i < |entries| ==> !Targets(entries[i], k)
    ensures HasKey(ApplyDependencies(report, entries), k)
    ensures forall idx :: IsFirstKey(ApplyDependencies(report, entries), idx, k) ==>
              ApplyDependencies(report, entries)[idx] ==
                (if idx < |report| then report[idx] else NewRecord(k)).(newVersions := UpdateInformation(entries[j].updates))
    decreases j
  {
    if j == 0 {
      LastIsFirst(report, entries, k);
    } else {
      var next := ApplyDependency(report, entries[0]);
      var tail := entries[1..];
      assert tail[j - 1] == entries[j] && forall i :: j - 1 < i < |tail| ==> !Targets(tail[i], k) by {
        LaterUntargeted(entries, j, k);
      }
      LastWriteWins(next, tail, k, j - 1);
      StepBack(report, entries[0], ApplyDependencies(next, tail), k, UpdateInformation(entries[j].updates));
      assert ApplyDependencies(report, entries) == ApplyDependencies(next, tail);
    }
  }

  /** Last write wins over the whole pass: when the files can be read, the first
      record with coordinate `k` in the result carries the upgrade list of the
      last entry, across all files in order, that targets `k`. */
  lemma PassLastWriteWins(report: Report, files: seq<RenovateLog>, tool: Option<BuildTool>, k: Coordinate, j: nat)
    requires forall i :: 0 <= i < |files| ==> HasPackageFile(files[i], tool)
    requires j < |Seqs.Concat(EntryLists(files, tool))|
    requires Targets(Seqs.Concat(EntryLists(files, tool))[j], k)
    requires forall i :: j < i < |Seqs.Concat(EntryLists(files, tool))| ==> !Targets(Seqs.Concat(EntryLists(files, tool))[i], k)
    ensures RenovatePass(report, files, tool).Success?
    ensures HasKey(RenovatePass(report, files, tool).value, k)
    ensures forall idx :: IsFirstKey(RenovatePass(report, files, tool).value, idx, k) ==>
              RenovatePass(report, files, tool).value[idx].newVersions ==
                UpdateInformation(Seqs.Concat(EntryLists(files, tool))[j].updates)
  {
    var entries := Seqs.Concat(EntryLists(files, tool));
    assert AllEntries(files, tool) == Success(entries);
    LastWriteWins(report, entries, k, j);
  }

  /** Over the whole pass, when the files can be read: a record no entry of any
      file targets comes through unchanged, its `newVersions` included. */
  lemma PassUntargetedRecordKept(report: Report, files: seq<RenovateLog>, tool: Option<BuildTool>, idx: int, k: Coordinate)
    requires forall i :: 0 <= i < |files| ==> HasPackageFile(files[i], tool)
    requires IsFirstKey(report, idx, k)
    requires forall i :: 0 <= i < |Seqs.Concat(EntryLists(files, tool))| ==> !Targets(Seqs.Concat(EntryLists(files, tool))[i], k)
    ensures RenovatePass(report, files, tool).Success?
    ensures IsFirstKey(RenovatePass(report, files, tool).value, idx, k)
    ensures RenovatePass(report, files, tool).value[idx] == report[idx]
  {
    var entries := Seqs.Concat(EntryLists(files, tool));
    assert AllEntries(files, tool) == Success(entries);
    UntargetedRecordKept(report, entries, idx, k);
  }

  /** Some entry in `entries` targets coordinate `k`. */
  predicate Targeted(entries: seq<RenovateDependency>, k: Coordinate) {
    exists j :: 0 <= j < |entries| && Targets(entries[j], k)
  }

  /** Every entry in `entries` targeting `b` comes after one targeting `a`. */
  predicate TargetedBefore(entries: seq<RenovateDependency>, a: Coordinate, b: Coordinate) {
    forall n :: 0 <= n < |entries| && Targets(entries[n], b) ==>
      exists m :: 0 <= m < n && Targets(entries[m], a)
  }

  /** `Targeted` seen from the tail of the list. */
  lemma TargetedTail(entries: seq<RenovateDependency>, k: Coordinate)
    requires 0 < |entries|
    requires Targets(entries[0], k) || Targeted(entries[1..], k)
    ensures Targeted(entries, k)
  {
    if !Targets(entries[0], k) {
      var j :| 0 <= j < |entries[1..]| && Targets(entries[1..][j], k);
      assert entries[1..][j] == entries[j + 1];
    }
  }

  /** `TargetedBefore` seen from the tail of the list. */
  lemma TargetedBeforeTail(entries: seq<RenovateDependency>, a: Coordinate, b: Coordinate)
    requires 0 < |entries| && !Targets(entries[0], b)
    requires Targets(entries[0], a) || TargetedBefore(entries[1..], a, b)
    ensures TargetedBefore(entries, a, b)
  {
    forall n | 0 <= n < |entries| && Targets(entries[n], b)
      ensures exists m :: 0 <= m < n && Targets(entries[m], a)
    {
      assert entries[1..][n - 1] == entries[n];
      if !Targets(entries[0], a) {
        var m :| 0 <= m < n - 1 && Targets(entries[1..][m], a);
        assert entries[1..][m] == entries[m + 1];
      }
    }
  }

  /** A record appended by entry `e` has the coordinate `e` targets. */
  lemma AppendedByEntry(report: Report, e: RenovateDependency, i: int)
    requires |report| <= i < |ApplyDependency(report, e)|
    ensures Targets(e, ApplyDependency(report, e)[i].Key())
  {
    assert |e.updates| > 0 && FindKey(report, EntryKey(e)).None?;
  }

  /** Nothing is appended without an entry: every record past the old end has
      a coordinate that some entry with updates targets. */
  lemma {:induction false} AppendedFromEntries(report: Report, entries: seq<RenovateDependency>)
    ensures var r := ApplyDependencies(report, entries);
            forall i :: |report| <= i < |r| ==> Targeted(entries, r[i].Key())
    decreases |entries|
  {
    if |entries| > 0 {
      var r := ApplyDependencies(report, entries);
      var next := ApplyDependency(report, entries[0]);
      assert r == ApplyDependencies(next, entries[1..]);
      AppendedFromEntries(next, entries[1..]);
      forall i | |report| <= i < |r|
        ensures Targeted(entries, r[i].Key())
      {
        if i < |next| {
          AppendedByEntry(report, entries[0], i);
          assert r[i].Key() == next[i].Key();
        }
        TargetedTail(entries, r[i].Key());
      }
    }
  }

  /** Records are appended in the order their coordinates are first targeted:
      of two appended records, the earlier one's coordinate is targeted before
      every entry targeting the later one's. */
  lemma {:induction false} AppendedInOrder(report: Report, entries: seq<RenovateDependency>)
    ensures var r := ApplyDependencies(report, entries);
            forall i, i' :: |report| <= i < i' < |r| ==> TargetedBefore(entries, r[i].Key(), r[i'].Key())
    decreases |entries|
  {
    if |entries| > 0 {
      var r := ApplyDependencies(report, entries);
      var next := ApplyDependency(report, entries[0]);
      assert r == ApplyDependencies(next, entries[1..]);
      AppendedInOrder(next, entries[1..]);
      forall i, i' | |report| <= i < i' < |r|
        ensures TargetedBefore(entries, r[i].Key(), r[i'].Key())
      {
        assert !HasKey(next, r[i'].Key());
        if Targets(entries[0], r[i'].Key()) {
          ApplyTargeting(report, entries[0], r[i'].Key());
          assert false;
        }
        if i < |next| {
          AppendedByEntry(report, entries[0], i);
          assert r[i].Key() == next[i].Key();
        }
        TargetedBeforeTail(entries, r[i].Key(), r[i'].Key());
      }
    }
  }

  /** Over the whole pass: every appended record has a coordinate that some
      entry, of some file, targets. */
  lemma PassAppendedFromEntries(report: Report, files: seq<RenovateLog>, tool: Option<BuildTool>)
    ensures var r := RenovatePass(report, files, tool);
            r.Success? ==> forall i :: |report| <= i < |r.value| ==> Targeted(Seqs.Concat(EntryLists(files, tool)), r.value[i].Key())
  {
    var r := RenovatePass(report, files, tool);
    if r.Success? {
      var entries := Seqs.Concat(EntryLists(files, tool));
      assert AllEntries(files, tool) == Success(entries);
      assert r.value == ApplyDependencies(report, entries);
      AppendedFromEntries(report, entries);
    }
  }

  /** Over the whole pass: records are appended in the order their coordinates
      are first targeted, files in order and each entry list in its own order. */
  lemma PassAppendedInOrder(report: Report, files: seq<RenovateLog>, tool: Option<BuildTool>)
    ensures var r := RenovatePass(report, files, tool);
            r.Success? ==> forall i, i' :: |report| <= i < i' < |r.value| ==>
              TargetedBefore(Seqs.Concat(EntryLists(files, tool)), r.value[i].Key(), r.value[i'].Key())
  {
    var r := RenovatePass(report, files, tool);
    if r.Success? {
      var entries := Seqs.Concat(EntryLists(files, tool));
      assert AllEntries(files, tool) == Success(entries);
      assert r.value == ApplyDependencies(report, entries);
      AppendedInOrder(report, entries);
    }
  }
}

=== FILE: report.dfy ===
/** The merged auto-update report: one record per package coordinate, with the
    facts each of the four input reports contributes. */
module Report {
  import opened Wrappers
  import Seqs

  /** A JSON string member that may be missing (JavaScript's `undefined`). */
  datatype Field = Undefined | Defined(text: string)

  /** A JSON value that the merge copies verbatim and never inspects
      (a relocation descriptor, an EPSS score). */
  datatype Opaque = Opaque(json: string)

  /** The identity of a record: (groupId, artifactId, version). */
  datatype Coordinate = Coordinate(groupId: Field, artifactId: Field, version: Field)

  /** One candidate upgrade target; serialised as `major`, `non-major`, `updateType`. */
  datatype UpdateInfo = UpdateInfo(major: string, nonMajor: string, updateType: string)

  datatype Vulnerability = Vulnerability(vulnId: string, description: string, severity: string, epssScore: Opaque)

  /** `violationType` is serialised as `type`. */
  datatype PolicyViolation = PolicyViolation(componentUuid: string, violationState: string, violationType: string, policyName: string)

  /** A merged record. `policyViolations` is absent until the first violation is attached. */
  datatype Record = Record(
    groupId: Field,
    artifactId: Field,
    version: Field,
    newVersions: seq<UpdateInfo>,
    scope: Field,
    lastUpdatedDate: Field,
    relocations: seq<Opaque>,
    vulnerabilities: seq<Vulnerability>,
    policyViolations: Option<seq<PolicyViolation>>)
  {
    function Key(): Coordinate {
      Coordinate(groupId, artifactId, version)
    }
  }

  /** The record a pass adds for an unmatched coordinate, before the pass sets
      the member it is about: empty scope and date, nothing collected yet. */
  function NewRecord(k: Coordinate): (r: Record)
    ensures r.Key() == k
    ensures r.newVersions == [] && r.relocations == [] && r.vulnerabilities == [] && r.policyViolations.None?
    ensures r.scope == Defined("") && r.lastUpdatedDate == Defined("")
  {
    Record(k.groupId, k.artifactId, k.version, [], Defined(""), Defined(""), [], [], None)
  }

  /** The accumulator every pass threads through and returns. */
  type Report = seq<Record>

  predicate HasKey(report: Report, k: Coordinate) {
    exists i :: 0 <= i < |report| && report[i].Key() == k
  }

  /** `i` is the lowest index whose record has coordinate `k`. */
  predicate IsFirstKey(report: Report, i: int, k: Coordinate) {
    && 0 <= i < |report|
    && report[i].Key() == k
    && forall j :: 0 <= j < i ==> report[j].Key() != k
  }

  predicate HasPackage(report: Report, g: Field, a: Field) {
    exists i :: 0 <= i < |report| && report[i].groupId == g && report[i].artifactId == a
  }

  /** `i` is the lowest index whose record has groupId `g` and artifactId `a`,
      whatever its version. */
  predicate IsFirstPackage(report: Report, i: int, g: Field, a: Field) {
    && 0 <= i < |report|
    && report[i].groupId == g && report[i].artifactId == a
    && forall j :: 0 <= j < i ==> !(report[j].groupId == g && report[j].artifactId == a)
  }

  /** Every record of `report` with coordinate `k` is `rec`. */
  predicate OnlyRecordFor(report: Report, k: Coordinate, rec: Record) {
    forall i :: 0 <= i < |report| && report[i].Key() == k ==> report[i] == rec
  }

  /** No two records share a coordinate. */
  predicate UniqueKeys(report: Report) {
    forall i, j :: 0 <= i < j < |report| ==> report[i].Key() != report[j].Key()
  }

  /** `after` keeps every record of `before` at its position with its coordinate:
      nothing is removed or reordered, new records only go at the end. */
  predicate KeysKept(before: Report, after: Report) {
    && |before| <= |after|
    && forall i :: 0 <= i < |before| ==> after[i].Key() == before[i].Key()
  }

  /** The `findIndex` lookup on the full coordinate. */
  function FindKey(report: Report, k: Coordinate): (r: Option<nat>)
    ensures r.Some? <==> HasKey(report, k)
    ensures r.Some? ==> IsFirstKey(report, r.value, k)
  {
    Seqs.FindIndex(report, (x: Record) => x.Key() == k)
  }

  /** The `findIndex` lookup on (groupId, artifactId) only. */
  function FindPackage(report: Report, g: Field, a: Field): (r: Option<nat>)
    ensures r.Some? <==> HasPackage(report, g, a)
    ensures r.Some? ==> IsFirstPackage(report, r.value, g, a)
  {
    Seqs.FindIndex(report, (x: Record) => x.groupId == g && x.artifactId == a)
  }
}

=== FILE: seqs.dfy ===
/** The two JavaScript built-ins the merge relies on: `Array.prototype.findIndex`
    and `String.prototype.split` with a one-character separator. */
module Seqs {
  import opened Wrappers

  /** Index of the first element satisfying `p`; `None` plays the role of -1. */
  function FindIndex<T>(s: seq<T>, p: T -> bool): (r: Option<nat>)
    ensures r.Some? ==> r.value < |s| && p(s[r.value])
    ensures r.Some? ==> forall j :: 0 <= j < r.value ==> !p(s[j])
    ensures r.None? <==> forall j :: 0 <= j < |s| ==> !p(s[j])
  {
    if |s| == 0 then None
    else if p(s[0]) then Some(0)
    else
      match FindIndex(s[1..], p)
      case None => None
      case Some(i) => Some(i + 1)
  }

  /** `parts` glued back together with `sep` between neighbours. */
  function Join(parts: seq<string>, sep: char): (s: string)
    requires |parts| >= 1
    ensures |parts| > 1 ==> sep in s
    ensures |s| >= |parts[0]|
  {
    if |parts| == 1 then parts[0]
    else parts[0] + [sep] + Join(parts[1..], sep)
  }

  /** `s.split(sep)`: the maximal separator-free pieces of `s`, in order.
      Like JavaScript, the result is never empty: `"".split(":")` is `[""]`. */
  function Split(s: string, sep: char): (parts: seq<string>)
    ensures |parts| >= 1
    ensures forall i :: 0 <= i < |parts| ==> sep !in parts[i]
    ensures Join(parts, sep) == s
    decreases |s|
  {
    if |s| == 0 then [""]
    else
      var rest := Split(s[1..], sep);
      if s[0] == sep then
        assert ([""] + rest)[1..] == rest;
        [""] + rest
      else
        var parts := [[s[0]] + rest[0]] + rest[1..];
        assert parts[1..] == rest[1..];
        assert s == [s[0]] + s[1..];
        parts
  }

  /** A separator-free piece followed by the separator splits off as one part. */
  lemma {:induction false} SplitPiece(p: string, sep: char, t: string)
    requires sep !in p
    ensures Split(p + [sep] + t, sep) == [p] + Split(t, sep)
    decreases |p|
  {
    if |p| == 0 {
      assert p + [sep] + t == [sep] + t;
      assert ([sep] + t)[1..] == t;
    } else {
      var s := p + [sep] + t;
      assert s[0] == p[0] && s[0] != sep;
      assert s[1..] == p[1..] + [sep] + t;
      SplitPiece(p[1..], sep, t);
      var rest := Split(s[1..], sep);
      assert rest[0] == p[1..] && rest[1..] == Split(t, sep);
      assert [p[0]] + p[1..] == p;
    }
  }

  /** A separator-free string splits into itself alone. */
  lemma {:induction false} SplitWhole(p: string, sep: char)
    requires sep !in p
    ensures Split(p, sep) == [p]
    decreases |p|
  {
    if |p| > 0 {
      SplitWhole(p[1..], sep);
      assert [p[0]] + p[1..] == p;
    }
  }

  /** Split is a left inverse of Join on separator-free pieces. */
  lemma {:induction false} SplitJoin(parts: seq<string>, sep: char)
    requires |parts| >= 1
    requires forall i :: 0 <= i < |parts| ==> sep !in parts[i]
    ensures Split(Join(parts, sep), sep) == parts
    decreases |parts|
  {
    if |parts| == 1 {
      SplitWhole(parts[0], sep);
    } else {
      SplitJoin(parts[1..], sep);
      SplitPiece(parts[0], sep, Join(parts[1..], sep));
      assert [parts[0]] + parts[1..] == parts;
    }
  }

  /** `p` is the text of `s` before its first `sep`, or all of `s` when it has none. */
  predicate IsFirstPiece(p: string, s: string, sep: char) {
    p <= s && sep !in p && (|p| == |s| || s[|p|] == sep)
  }

  /** The first part of a split is the text before the first separator; there
      are further parts exactly when `s` has a separator, and they are the split
      of the text after it. */
  lemma SplitHead(s: string, sep: char)
    ensures IsFirstPiece(Split(s, sep)[0], s, sep)
    ensures |Split(s, sep)| > 1 <==> sep in s
    ensures |Split(s, sep)| > 1 ==>
              |Split(s, sep)[0]| < |s| && Split(s[|Split(s, sep)[0]| + 1..], sep) == Split(s, sep)[1..]
  {
    var parts := Split(s, sep);
    if |parts| > 1 {
      var rest := parts[1..];
      assert s == parts[0] + [sep] + Join(rest, sep);
      assert s[|parts[0]|] == sep;
      assert s[|parts[0]| + 1..] == Join(rest, sep);
      SplitJoin(rest, sep);
    } else {
      assert s == parts[0];
    }
  }

  /** The lists laid end to end, in order. */
  function Concat<T>(lists: seq<seq<T>>): seq<T> {
    if |lists| == 0 then [] else lists[0] + Concat(lists[1..])
  }

  /** Concatenation regroups freely. */
  lemma AppendAssoc<T>(a: seq<T>, b: seq<T>, c: seq<T>)
    ensures a + b + c == a + (b + c)
  {
  }
}

=== FILE: wrappers.dfy ===
/** Optional values and results with an error, used where the merge script
    reads an absent JSON member or aborts with an uncaught exception. */
module Wrappers {

  /** A value that may be missing. */
  datatype Option<+T> = None | Some(value: T) {

    /** The carried value, or `default` when there is none. */
    function GetOr(default: T): T {
      match this
      case Some(v) => v
      case None => default
    }
  }

  /** Either a value or the reason the computation stopped. */
  datatype Result<+R, +E> = Success(value: R) | Failure(error: E) {

    /** The carried value, or `default` on failure. */
    function GetOr(default: R): R {
      match this
      case Success(v) => v
      case Failure(_) => default
    }

    predicate IsFailure() {
      Failure?
    }

    function PropagateFailure<U>(): Result<U, E>
      requires Failure?
    {
      Failure(error)
    }

    function Extract(): R
      requires Success?
    {
      value
    }
  }
}
